=== FILE: README.md ===
# Bouquet builder and cart reconciliation of the Bloom & Vibe flower-shop bot

The bot sells flowers and ready bouquets through a Telegram chat. Under the chat
handlers of `main.py` sits a small sequential state machine over three SQLite
tables and one in-memory marker:

- the products table: id to name, price, description and type (`lonely`,
  `bouquet`, `created_bouquet`), with unique names;
- each user's cart: product id to quantity;
- each user's bouquet draft: product id to quantity;
- the edit marker `user_states[uid]['editing_pid']`, which links the draft to the
  composed bouquet it was opened from.

This project models that machine for one user. Each handler is a pure function
from a `Builder.Shop` (products, cart, draft, marker) to the next one.

- A handler that raises before its commit leaves the tables as they were. It is
  modelled as a `Failure` result, and the state is unchanged.
- Rows are maps. A listing is a SQL JOIN against the products table, so rows
  whose product is missing drop out. The cart listing (`ORDER BY p.id`) is in
  ascending id order. The draft queries have no `ORDER BY`; they are modelled in
  the same ascending order.

The modules follow the program's pieces:

- `Wrappers`: `Option` and `Result`.
- `Keys`: least and greatest element of a finite id set.
- `Text`: the Python string primitives the edit handler relies on, each
  modelled literally:
  - `str.split`: non-overlapping, scanned left to right;
  - `str.strip` with Python's whitespace set;
  - `str.replace(')', '')`;
  - ASCII `str.isdigit`;
  - `int` on a digit string;
  - `str(int)`.
- `Catalog`: the products table, lookup by name, and the next AUTOINCREMENT id.
- `Listing`: JOIN listings, `Get` (a missing row reads as quantity 0),
  `Σ qty × price` totals, and the laws those totals obey.
- `Cart`: `add_to_cart`, `remove_one_from_cart`, `clear_cart`, and checkout.
- `Draft`: the `bq_add` / `bq_sub` / `bq_del` buttons.
- `Manifest`: the composition text that pack and save-and-exit write into a
  bouquet's description, the edit handler's parse of it, and the round trip
  between them.
- `Builder`: create, reset, pack, edit, save-and-exit, and the builder screen's
  totals.

The round trip only holds when product names avoid the characters the text
format uses as delimiters. `Manifest.SafeName` states the condition:

- the name is non-empty and does not start with whitespace;
- it contains no `,`, `.` or `:`;
- it contains no `" ("`.

`Manifest.CommaInNameBreaksRoundTrip` exhibits the failure for a name containing
a comma. Every name the catalogue is seeded with meets the condition.

Save-and-exit writes back the draft total without the packaging fee, and a
description without the packaging sentence. A packed bouquet that is edited and
then saved therefore loses its packaging. This is what the code does, and the
model does the same.

Save-and-exit on an emptied draft deletes only the bouquet's cart row. Its
product row stays, although the user is told that the empty bouquet was deleted.
The model follows the code.

## Model

| member | source | states |
|---|---|---|
| `Catalog.FindByName` | main.py:814-817 | the id found carries the name; nothing is found exactly when no product has the name; under unique names, the one product with it is found |
| `Catalog.NextId` | main.py:698-714 | the id a new product row receives is positive and above every existing id, so it names no existing product |
| `Listing.Lines` | main.py:155-165 | every listed line is a row of the table whose product exists, carrying that product's name and price and the row's quantity; lines come in strictly increasing product id |
| `Listing.LinesCover` | main.py:155-165 | the listing covers exactly the rows whose product exists: missing products drop out of the JOIN |
| `Listing.TotalRemove` | main.py:236-241 | a total does not depend on listing order: any row can be taken out, and the rest totals the difference |
| `Listing.TotalMerge` | main.py:227-243 | summing the draft total and the cart total equals totalling the draft and cart merged quantity-wise into one basket |
| `Cart.AddToCart` | main.py:125-135 | the product's quantity becomes its old quantity (0 if absent) plus `qty`; every other line is unchanged; positive quantities stay positive when `qty` is at least 1 |
| `Cart.RemoveOne` | main.py:137-148 | a line above 1 loses exactly one unit; a line at 1 is deleted; an absent line is a no-op; no other line changes, and no quantity drops to 0 or below |
| `Cart.ClearCart` | main.py:150-153 | no line is left |
| `Cart.AddThenRemoveOne` | main.py:125-148 | adding one unit and then removing one gives back the cart |
| `Cart.RemoveOneThenAdd` | main.py:125-148 | removing one unit of a present line and adding one back gives back the cart |
| `Cart.Checkout` | main.py:849-858 | checkout fails exactly when no cart row joins a product; otherwise it leaves the cart empty |
| `Draft.Adjust` | main.py:585-607 | the row is present exactly when the computed quantity (current plus n, current minus n, or 0) is positive, and then holds it; other rows are unchanged; stored quantities stay at least 1 |
| `Draft.AddThenSub` | main.py:585-607 | "+n" followed by "-n" on one flower gives back the draft |
| `Draft.AdjustTotal` | main.py:585-636 | after an adjustment the draft total changes by exactly the price of the units added or removed |
| `Text.Split` | main.py:804-810 | `str.split(sep)` always yields at least one part, and joining the parts with `sep` gives back the text |
| `Text.SplitParts` | main.py:804-810 | `str.split(sep)` cuts at every occurrence, scanning left to right. With no occurrence the text is the only part; otherwise there are at least two parts, the first ends where the first occurrence starts, and the remaining parts are the split of the text after that occurrence. No part contains `sep`, and every character of a part is a character of the text |
| `Text.Strip` | main.py:805 | `str.strip()`: the result is no longer than the text, neither starts nor ends with whitespace, and is the text itself when the text neither starts nor ends with whitespace |
| `Text.StripShape` | main.py:805 | `str.strip()` keeps only characters of the text, and leaves nothing exactly when the text is all whitespace |
| `Text.StripMiddle` | main.py:805 | `str.strip()` removes the leading and trailing whitespace and nothing else: with `a` the length of the leading whitespace, the result fits in the text from offset `a` and its `i`-th character is the text's character `a + i`, so it is the contiguous slice starting right after the leading whitespace; everything before and after that slice is whitespace |
| `Text.RemoveAll` | main.py:810 | `str.replace(')', '')`: a character is in the result exactly when it is in the text and is not the removed one |
| `Text.RemoveAllAppend` | main.py:810 | `str.replace(')', '')` works piece by piece: removing from a concatenation is removing from each part, and a single character is kept, once and in place, exactly when it is not the removed one; together these fix the order and number of the kept characters |
| `Text.DigitsValue` | main.py:812-813 | `int(qty_str)` on a string of n digits is below 10^n |
| `Text.DigitsValueZero` | main.py:812-813 | the number `int` reads is 0 exactly when every digit is `0` |
| `Text.DigitsValueLeadingZero` | main.py:812-813 | a leading zero does not change the value `int` reads, so `"07"` reads as 7 |
| `Text.IntStr` | main.py:679-682 | `str(qty)`: a non-negative quantity is written as ASCII digits that read back as the same number; 0 is written `"0"` and a positive number never starts with `0`; a negative one starts with `-` and fails the digits test |
| `Manifest.PackDescription` | main.py:678-691 | the description pack writes starts with the marker `"Состав: "` and ends with `.`; what it parses back to is stated by `Manifest.PackDescriptionRoundTrip` |
| `Manifest.SaveDescription` | main.py:519-525 | the description save-and-exit writes starts with the marker and ends with `.`; what it parses back to is stated by `Manifest.SaveDescriptionRoundTrip` |
| `Manifest.ParseItem` | main.py:808-813 | a piece lacking `(` or `)` is skipped; a parsed quantity is never negative |
| `Manifest.ParseItemCases` | main.py:808-810 | a piece with both parentheses is malformed, which ends the loop, exactly when it holds no `" ("`; a parsed item's name is exactly the text before the first `" ("` |
| `Manifest.ParseComposition` | main.py:804-813 | the parse of any description yields at least one piece, and no parsed quantity is negative |
| `Manifest.ParsedNamesClean` | main.py:804-810 | no name the parse reads contains `,` or `.`, since the body is cut at the first `.` and split at every `,` |
| `Manifest.ParseItemPart` | main.py:807-813 | one written piece `name (qty)` parses back to the same name and quantity for every quantity of at least 0 and every name that holds no `" ("`; commas, dots, colons and leading blanks in the name do not matter to a single piece |
| `Manifest.RoundTrip` | main.py:804-813 | for a non-empty list of components whose names meet `Manifest.SafeName` (non-empty, no leading whitespace, no `,`, `.`, `:` and no `" ("`) and whose quantities are at least 0, the parse of the written composition, followed by any text without `:`, yields every component, in order |
| `Manifest.PackDescriptionRoundTrip` | main.py:678-691 | for a non-empty list of components whose names meet `Manifest.SafeName` and whose quantities are at least 0, the description pack writes, with or without packaging, parses back to the packed components |
| `Manifest.SaveDescriptionRoundTrip` | main.py:519-525 | for a non-empty list of components whose names meet `Manifest.SafeName` and whose quantities are at least 0, the description save-and-exit writes parses back to the saved components |
| `Manifest.CommaInNameBreaksRoundTrip` | main.py:804-805 | a one-component bouquet whose name contains a comma is read back as two pieces |
| `Manifest.MarkerEndingNameBreaksRoundTrip` | main.py:804-813 | a one-component bouquet named `"Состав:"` is written as `"Состав: Состав: (1)."`; the parse starts after the second marker and reads the single piece `"(1)"` as malformed |
| `Builder.BouquetName` | main.py:695-696 | the generated name starts with the prefix `"Авторский букет №"` and is longer than it |
| `Builder.BouquetNameDigits` | main.py:695-696 | after the prefix, the name of a non-negative draw consists of decimal digits that read back as the draw |
| `Builder.BouquetNamesDiffer` | main.py:703-710 | two different non-negative draws give different names, so the retry with `rand_id + 1` tries a name other than the first |
| `Builder.BeginNew` | main.py:483-495 | starting a new bouquet leaves the draft empty and the marker absent, keeps cart and products, and keeps the state valid |
| `Builder.ResetDraft` | main.py:562-573 | reset leaves the draft empty and the marker absent, keeps cart and products, and keeps the state valid |
| `Builder.BeginNewIdempotent` | main.py:562-573 | reset and create-new (main.py:483-495) each equal themselves applied twice, and they have the same effect |
| `Builder.CreationMenuTotal` | main.py:214-243 | the builder screen's grand total is the total of draft and cart merged into one basket |
| `Builder.Pack` | main.py:663-735 | succeeds exactly when some draft row joins a product, one of the two generated names is free, and the cart has no row for the new id; the empty-draft and both-names-taken failures are told apart. On success: a new `created_bouquet` row with a fresh id, the first free generated name, price `Σ price×qty` plus 15 only with packaging, and the written description. The new cart row has quantity 1. The draft is empty and the marker gone. The edited bouquet's cart row is removed, every other row kept, and the old product row stays. Validity is kept |
| `Builder.Install` | main.py:717-733 | the writes after a successful insert: the products table gains exactly the new row, the cart gains the new row at 1 and loses only the edited bouquet's row, the draft is cleared, the marker dropped |
| `Builder.PackConservesValue` | main.py:678-733 | after pack, cart total plus draft total equals the old sum, plus the packaging fee, minus the value of the superseded bouquet's cart row |
| `Builder.Reconstruct` | main.py:807-822 | rows already present are kept; every new row is a product whose name and quantity some parsed piece carries |
| `Builder.ReconstructStops` | main.py:803-822 | the loop ends where the `try` ends: every new row comes from a piece that finds that product and carries that quantity, with no malformed piece (the `IndexError`) and no repeated product (the `UNIQUE` violation) up to and including it; with `Builder.ReconstructComplete` this fixes the rebuilt draft exactly |
| `Builder.ReconstructComplete` | main.py:807-822 | conversely, a piece whose name finds a product gets that product inserted with the piece's quantity, provided the loop reaches it without stopping: no piece up to it is malformed, and no product found by it or an earlier piece already had a row, from the starting draft or from a still earlier piece |
| `Builder.ReconstructIgnoresUnresolved` | main.py:808-817 | a piece that finds no product, one without parentheses or a non-digit quantity or a name no product carries, can be removed without changing the rebuilt draft: the loop skips it and goes on |
| `Builder.Edit` | main.py:784-833 | fails exactly for a missing product; otherwise keeps products and cart and sets the marker. The draft is rebuilt only from the description's pieces: every piece the loop reaches whose name finds a product gets that product's row with the piece's quantity, and every row comes from such a piece before the first malformed piece or repeated product, where the loop stops. Validity is kept when every parsed quantity is at least 1 |
| `Builder.SaveAndExit` | main.py:502-540 | clears draft and marker in every case. When not editing, nothing else changes. When editing, an empty draft removes only the edited bouquet's cart row; otherwise the edited product gets price `Σ price×qty` (no fee) and the written composition, and nothing else changes. Validity is kept |
| `Builder.ReconstructLines` | main.py:814-820 | replaying the pieces of a listing against a table that agrees on names rebuilds exactly the listed rows |
| `Builder.PackThenEditRestoresDraft` | main.py:784-833 | editing the bouquet just packed rebuilds the packed draft, meaning its rows whose product exists, from a valid state whose draft products all have names meeting `Manifest.SafeName` |
| `Builder.SaveThenEditRestoresDraft` | main.py:519-533 | from a valid state whose draft products all have names meeting `Manifest.SafeName`, editing a bouquet just saved from a non-empty draft rebuilds that draft, meaning its rows whose product exists |
| `Builder.AbandonedEditKeepsCart` | main.py:826-833 | opening a bouquet for edit, resetting and leaving changes neither the cart nor the products |

## Left out

- The Telegram transport and all rendering: keyboards, message texts, photos and
  captions, the `/start` and main-menu screens, and callback-data parsing. A
  malformed callback returns, or raises, before writing any table: a missing or
  non-numeric amount in `bq_add_<pid>`/`bq_sub_<pid>` makes `int(parts[3])`
  raise after the product lookup, with nothing written.
- `init_db`: table creation, the image-column migration and the catalogue
  seeding. The products table is an input map, and the image column is not
  modelled.
- `payment_services.py` (HTTP calls to the payment provider). `main.py` does not
  use it.
- `random.randint`: the name suffix is a parameter of `Builder.Pack`.
- The `waiting_for_qty` branch of the fallback message handler: nothing sets that
  state.
- Concurrency and the sharing of the tables between users. Each handler is one
  atomic transition on one user's rows.
- Product descriptions that are NULL. A description is always a string here.
- Non-ASCII digits: Python's `str.isdigit` accepts them; the model's `IsDigit`
  accepts only `0`-`9`.
- `Manifest.RoundTrip`: the name condition also bans `:`, which is more than
  needed. The parse only cuts at the full marker `"Состав: "`, but the proof
  relies on `:` appearing nowhere after the marker. The exact condition is that
  the marker occurs in no name followed by a blank: a name ending in `"Состав:"`
  already breaks the round trip (`Manifest.MarkerEndingNameBreaksRoundTrip`), so
  "no marker inside the name" would not be enough.
- `Manifest.PackDescriptionRoundTrip`: inherits the `:` ban of
  `Manifest.SafeName` from `Manifest.RoundTrip`, for the same reason.
- `Manifest.SaveDescriptionRoundTrip`: inherits the `:` ban of
  `Manifest.SafeName` from `Manifest.RoundTrip`, for the same reason.
- `Builder.PackThenEditRestoresDraft`: its condition that draft names meet
  `Manifest.SafeName` carries the same `:` ban, for the same reason.
- `Builder.SaveThenEditRestoresDraft`: its condition that draft names meet
  `Manifest.SafeName` carries the same `:` ban, for the same reason.
- `Builder.Pack`: a collision of both generated names, or a cart row already
  holding the new id, is an unhandled exception. It is modelled only as a
  failure that changes nothing.
- `Builder.Edit`: keeping the state valid is claimed only when every parsed
  quantity is at least 1. A description containing `(0)` would make the code
  insert a draft row of quantity 0.
- Integer width. SQLite stores an INTEGER in 64 bits, and Python's `sqlite3`
  raises `OverflowError` when it binds an int outside that range. The model's
  integers are unbounded. The +1 and +10 buttons cannot reach such values, but a
  hand-written description or a very large price could.
- `Builder.Reconstruct`: a parsed quantity of 2^63 or more is inserted and the
  loop goes on. In the code, binding it raises inside the edit handler's `try`,
  which ends the parse without that row.
- `Builder.Edit`: inherits the same gap from `Builder.Reconstruct` for quantities
  of 2^63 or more.
- `Builder.Pack`: a total price of 2^63 or more makes the product INSERT raise
  unhandled in the code; the model's pack succeeds.
- The draft queries have no `ORDER BY`. Their row order, and so the order of
  components in a written description, is modelled as ascending product id.

=== FILE: builder.dfy ===
/**
 * The bouquet builder: the handlers of the bot's callback dispatcher that move
 * rows between a user's draft, the user's cart and the products table, and the
 * edit marker that links a draft to the packed bouquet it was opened from.
 */
module Builder {
  import opened Wrappers
  import opened Text
  import opened Catalog
  import opened Listing
  import opened Manifest

  /**
   * One user's view of the store: the shared products table, the user's cart and
   * draft rows (product id to quantity) and the edit marker `editing_pid`.
   */
  datatype Shop = Shop(products: Products, cart: map<int, int>, draft: map<int, int>, editing: Option<int>)

  /** The edit marker, when set, names a product. */
  predicate MarkerKnown(s: Shop)
  {
    s.editing.Some? ==> s.editing.value in s.products
  }

  /** What every handler keeps true. */
  predicate Valid(s: Shop)
  {
    && UniqueNames(s.products)
    && Positive(s.cart)
    && Positive(s.draft)
    && MarkerKnown(s)
  }

  const PackagingFee: int := 15
  const BouquetNamePrefix: string := "Авторский букет №"

  /** `f"Авторский букет №{rand_id}"`. */
  function BouquetName(suffix: int): (r: string)
    ensures |r| > |BouquetNamePrefix| && r[..|BouquetNamePrefix|] == BouquetNamePrefix
  {
    BouquetNamePrefix + IntStr(suffix)
  }

  /** After the prefix, the name of a non-negative draw is its decimal digits, which read back as the draw. */
  lemma BouquetNameDigits(suffix: int)
    requires suffix >= 0
    ensures var tail := BouquetName(suffix)[|BouquetNamePrefix|..];
            IsDigits(tail) && DigitsValue(tail) == suffix
  {
    assert BouquetName(suffix)[|BouquetNamePrefix|..] == IntStr(suffix);
  }

  /** Different draws give different names, so pack's retry with `rand_id + 1` tries a second name. */
  lemma BouquetNamesDiffer(a: int, b: int)
    requires 0 <= a && 0 <= b && a != b
    ensures BouquetName(a) != BouquetName(b)
  {
    BouquetNameDigits(a);
    BouquetNameDigits(b);
  }

  function ComponentsOf(lines: seq<Line>): seq<Component>
  {
    seq(|lines|, i requires 0 <= i < |lines| => Component(lines[i].name, lines[i].qty))
  }

  /** `create_bouquet`: the user starts a new bouquet, so the draft is cleared and any edit forgotten. */
  function BeginNew(s: Shop): (r: Shop)
    ensures r.draft == map[] && r.editing.None?
    ensures r.products == s.products && r.cart == s.cart
    ensures Valid(s) ==> Valid(r)
  {
    s.(draft := map[], editing := None)
  }

  /** `reset_draft`: the draft is cleared, and an edit in progress is forgotten. */
  function ResetDraft(s: Shop): (r: Shop)
    ensures r.draft == map[] && r.editing.None?
    ensures r.products == s.products && r.cart == s.cart
    ensures Valid(s) ==> Valid(r)
  {
    Shop(s.products, s.cart, map[], None)
  }

  lemma BeginNewIdempotent(s: Shop)
    ensures BeginNew(BeginNew(s)) == BeginNew(s)
    ensures ResetDraft(ResetDraft(s)) == ResetDraft(s)
    ensures ResetDraft(s) == BeginNew(s)
  {
  }

  /**
   * The builder screen's grand total: the draft total plus the cart total, which is
   * the price of the draft and the cart taken together as one basket.
   */
  function CreationMenuTotal(s: Shop): (grand: int)
    ensures grand == Total(Merge(s.draft, s.cart), s.products)
  {
    TotalMerge(s.draft, s.cart, s.products);
    Total(s.draft, s.products) + Total(s.cart, s.products)
  }

  datatype PackError =
    | EmptyDraft    // no draft row joins a product: the handler answers and changes nothing
    | NameTaken     // both generated names are in use: the second INSERT raises, nothing is committed
    | CartRowTaken  // the cart already holds a row for the new id: the INSERT raises, nothing is committed

  /** The state after a successful pack, with what the confirmation shows. */
  datatype Packed = Packed(shop: Shop, id: int, name: string, description: string, price: int)

  /**
   * When pack gets through: some draft row joins a product, one of the two generated
   * names is free, and the cart holds no row for the id the new product receives.
   */
  predicate Packable(s: Shop, suffix: int)
  {
    && s.draft.Keys * s.products.Keys != {}
    && (FindByName(s.products, BouquetName(suffix)).None? || FindByName(s.products, BouquetName(suffix + 1)).None?)
    && NextId(s.products) !in s.cart
  }

  /**
   * `pack_yes` / `pack_no`: the draft becomes a new `created_bouquet` product, priced at
   * the draft total plus the packaging fee if asked for, and a cart row of quantity 1;
   * the draft is cleared, and a bouquet being edited loses its cart row (its product
   * row stays). `suffix` is the random draw of `random.randint(10000, 99999)`.
   */
  function Pack(s: Shop, packaging: bool, suffix: int): (r: Result<Packed, PackError>)
    ensures r == Failure(EmptyDraft) <==> s.draft.Keys * s.products.Keys == {}
    ensures r == Failure(NameTaken) <==>
              && s.draft.Keys * s.products.Keys != {}
              && FindByName(s.products, BouquetName(suffix)).Some?
              && FindByName(s.products, BouquetName(suffix + 1)).Some?
    ensures r.Success? <==> Packable(s, suffix)
    ensures r.Success? ==>
              var o := r.value;
              && o.id !in s.products && o.id !in s.cart
              && o.shop.products == s.products[o.id := Product(o.name, o.price, o.description, CreatedBouquet)]
              && FindByName(s.products, o.name).None?
              && (FindByName(s.products, BouquetName(suffix)).None? ==> o.name == BouquetName(suffix))
              && (FindByName(s.products, BouquetName(suffix)).Some? ==> o.name == BouquetName(suffix + 1))
              && o.price == Total(s.draft, s.products) + (if packaging then PackagingFee else 0)
              && o.description == PackDescription(ComponentsOf(Lines(s.draft, s.products)), packaging)
              && o.shop.draft == map[] && o.shop.editing.None?
              && (forall k :: k != o.id ==> (k in o.shop.cart <==> k in s.cart && Some(k) != s.editing))
              && (forall k :: k in o.shop.cart && k != o.id ==> o.shop.cart[k] == s.cart[k])
    ensures r.Success? && Valid(s) ==>
              && r.value.id in r.value.shop.cart && r.value.shop.cart[r.value.id] == 1
              && Valid(r.value.shop)
  {
    LinesCover(s.draft, s.products);
    var lines := Lines(s.draft, s.products);
    if |lines| == 0 then Failure(EmptyDraft)
    else
      assert lines[0].pid in Pids(lines);
      var price := Subtotal(lines) + (if packaging then PackagingFee else 0);
      var description := PackDescription(ComponentsOf(lines), packaging);
      var first := BouquetName(suffix);
      var name := if FindByName(s.products, first).None? then first else BouquetName(suffix + 1);
      if FindByName(s.products, name).Some? then Failure(NameTaken)
      else
        var id := NextId(s.products);
        if id in s.cart then Failure(CartRowTaken)
        else Success(Packed(Install(s, id, Product(name, price, description, CreatedBouquet)), id, name, description, price))
  }

  /**
   * The writes of a successful pack: the product row, the cart row of quantity 1,
   * the removal of the edited bouquet's cart row, and the cleared draft.
   */
  function Install(s: Shop, id: int, made: Product): (r: Shop)
    ensures r.products == s.products[id := made]
    ensures r.draft == map[] && r.editing.None?
    ensures forall k :: k != id ==> (k in r.cart <==> k in s.cart && Some(k) != s.editing)
    ensures forall k :: k in r.cart && k != id ==> r.cart[k] == s.cart[k]
    ensures Valid(s) && id !in s.products && FindByName(s.products, made.name).None? ==>
              id in r.cart && r.cart[id] == 1 && Valid(r)
  {
    var added := s.cart[id := 1];
    var cart := if s.editing.Some? then added - {s.editing.value} else added;
    Shop(s.products[id := made], cart, map[], None)
  }

  /**
   * Packing moves the draft's value into the cart: the draft and cart totals together
   * grow by the packaging fee and lose only the superseded bouquet's cart row.
   */
  lemma PackConservesValue(s: Shop, packaging: bool, suffix: int)
    requires MarkerKnown(s) && Packable(s, suffix)
    ensures var o := Pack(s, packaging, suffix).value;
            var superseded := if s.editing.Some? && s.editing.value in s.cart
                              then Value(s.editing.value, s.cart[s.editing.value], s.products) else 0;
            Total(o.shop.draft, o.shop.products) + Total(o.shop.cart, o.shop.products)
            == Total(s.draft, s.products) + Total(s.cart, s.products)
               + (if packaging then PackagingFee else 0) - superseded
  {
    var o := Pack(s, packaging, suffix).value;
    var p := s.products;
    var p' := o.shop.products;
    var made := Product(o.name, o.price, o.description, CreatedBouquet);
    assert Lines(map[], p') == [];
    var added := s.cart[o.id := 1];
    TotalInsert(s.cart, p', o.id, 1);
    TotalFreshProduct(s.cart, p, o.id, made);
    assert Total(added, p') == Total(s.cart, p) + o.price;
    if s.editing.Some? {
      var prev := s.editing.value;
      assert prev != o.id;
      assert o.shop.cart == added - {prev};
      if prev in s.cart {
        TotalRemove(added, p', prev);
        assert Value(prev, added[prev], p') == Value(prev, s.cart[prev], p);
      } else {
        TotalRemoveAbsent(added, p', prev);
      }
    } else {
      assert o.shop.cart == added;
    }
  }

  datatype EditError = ProductNotFound

  /** Some parsed piece names `name` with quantity `q`. */
  predicate Produced(items: seq<Parsed>, name: string, q: int)
  {
    exists i :: 0 <= i < |items| && items[i] == Item(Component(name, q))
  }

  /** The product a parsed piece finds by its name, if the piece is an item and some product carries the name. */
  function Resolves(x: Parsed, p: Products): Option<int>
  {
    if x.Item? then FindByName(p, x.c.name) else None
  }

  /**
   * The edit loop passes the first `n` pieces without stopping: none is malformed, and
   * every one that finds a product finds one that has no row yet, neither in `draft`
   * nor from an earlier piece.
   */
  predicate Unbroken(items: seq<Parsed>, p: Products, draft: map<int, int>, n: int)
    requires 0 <= n <= |items|
  {
    && (forall j :: 0 <= j < n ==> !items[j].Malformed?)
    && (forall j :: 0 <= j < n && Resolves(items[j], p).Some? ==> Resolves(items[j], p).value !in draft)
    && (forall j, j' :: 0 <= j < j' < n && Resolves(items[j], p).Some? ==> Resolves(items[j'], p) != Resolves(items[j], p))
  }

  /**
   * Every piece the loop reaches without stopping and whose name finds a product has put
   * that product into `r` with the piece's quantity.
   */
  predicate Inserted(items: seq<Parsed>, p: Products, draft: map<int, int>, r: map<int, int>)
  {
    forall i :: 0 <= i < |items| && Unbroken(items, p, draft, i + 1) && Resolves(items[i], p).Some? ==>
      Resolves(items[i], p).value in r && r[Resolves(items[i], p).value] == items[i].c.qty
  }

  /** After the first piece, the loop carries on from a draft that gained at most that piece's row. */
  lemma UnbrokenTail(items: seq<Parsed>, p: Products, draft: map<int, int>, draft': map<int, int>)
    requires |items| >= 1
    requires forall k :: k in draft' ==> k in draft || Resolves(items[0], p) == Some(k)
    ensures forall n :: 1 <= n <= |items| && Unbroken(items, p, draft, n) ==> Unbroken(items[1..], p, draft', n - 1)
  {
    forall n | 1 <= n <= |items| && Unbroken(items, p, draft, n)
      ensures Unbroken(items[1..], p, draft', n - 1)
    {
      var rest := items[1..];
      assert forall j :: 0 <= j < |rest| ==> rest[j] == items[j + 1];
    }
  }

  /**
   * The edit handler's loop over parsed pieces: a piece whose name finds a product
   * inserts a draft row; a name that finds none is skipped; a malformed piece or a
   * second row for the same product raises inside the `try`, which ends the loop and
   * keeps the rows inserted so far.
   */
  function Reconstruct(items: seq<Parsed>, p: Products, draft: map<int, int>): (r: map<int, int>)
    ensures forall k :: k in draft ==> k in r && r[k] == draft[k]
    ensures forall k :: k in r && k !in draft ==> k in p && Produced(items, p[k].name, r[k])
    decreases |items|
  {
    if |items| == 0 then draft
    else
      var rest := items[1..];
      assert forall i :: 0 <= i < |rest| ==> rest[i] == items[i + 1];
      match items[0]
      case Malformed => draft
      case Skip =>
        Reconstruct(rest, p, draft)
      case Item(c) =>
        match FindByName(p, c.name)
        case None =>
          Reconstruct(rest, p, draft)
        case Some(k) =>
          if k in draft then draft else Reconstruct(rest, p, draft[k := c.qty])
  }

  /**
   * The loop inserts every piece it reaches: a piece whose name finds a product, with no
   * malformed piece and no repeated product up to it, gets that product's row with its quantity.
   */
  lemma {:induction false} ReconstructComplete(items: seq<Parsed>, p: Products, draft: map<int, int>)
    ensures Inserted(items, p, draft, Reconstruct(items, p, draft))
    decreases |items|
  {
    if |items| > 0 {
      var rest := items[1..];
      assert forall i :: 0 <= i < |rest| ==> rest[i] == items[i + 1];
      match items[0]
      case Malformed =>
      case Skip =>
        UnbrokenTail(items, p, draft, draft);
        ReconstructComplete(rest, p, draft);
      case Item(c) =>
        match FindByName(p, c.name)
        case None =>
          UnbrokenTail(items, p, draft, draft);
          ReconstructComplete(rest, p, draft);
        case Some(k) =>
          if k !in draft {
            UnbrokenTail(items, p, draft, draft[k := c.qty]);
            ReconstructComplete(rest, p, draft[k := c.qty]);
          }
    }
  }

  /**
   * `k` with quantity `v` comes from a piece the loop reaches without stopping: the piece
   * finds `k`, carries `v`, and no piece up to and including it is malformed or repeats a product.
   */
  predicate FromPiece(items: seq<Parsed>, p: Products, draft: map<int, int>, k: int, v: int)
  {
    exists i :: 0 <= i < |items| && Unbroken(items, p, draft, i + 1) && Resolves(items[i], p) == Some(k) && items[i].c.qty == v
  }

  /** Every row of `r` that was not in `draft` comes from a piece the loop reaches without stopping. */
  predicate Reached(items: seq<Parsed>, p: Products, draft: map<int, int>, r: map<int, int>)
  {
    forall k :: k in r && k !in draft ==> FromPiece(items, p, draft, k, r[k])
  }

  /** A first piece the loop passes, followed by `n` more passed from the draft it leaves, makes `n + 1` pieces passed. */
  lemma UnbrokenCons(items: seq<Parsed>, p: Products, draft: map<int, int>, draft': map<int, int>, n: int)
    requires 0 <= n < |items| && !items[0].Malformed?
    requires forall k :: k in draft ==> k in draft'
    requires Resolves(items[0], p).Some? ==> Resolves(items[0], p).value !in draft && Resolves(items[0], p).value in draft'
    requires Unbroken(items[1..], p, draft', n)
    ensures Unbroken(items, p, draft, n + 1)
  {
    var rest := items[1..];
    assert forall j :: 0 < j < |items| ==> items[j] == rest[j - 1];
  }

  /** A row the rest of the loop derives is still derived when one passed piece is put in front. */
  lemma FromPieceCons(items: seq<Parsed>, p: Products, draft: map<int, int>, draft': map<int, int>, k: int, v: int)
    requires |items| >= 1 && !items[0].Malformed?
    requires forall k :: k in draft ==> k in draft'
    requires Resolves(items[0], p).Some? ==> Resolves(items[0], p).value !in draft && Resolves(items[0], p).value in draft'
    requires FromPiece(items[1..], p, draft', k, v)
    ensures FromPiece(items, p, draft, k, v)
  {
    var rest := items[1..];
    var i :| 0 <= i < |rest| && Unbroken(rest, p, draft', i + 1) && Resolves(rest[i], p) == Some(k) && rest[i].c.qty == v;
    UnbrokenCons(items, p, draft, draft', i + 1);
    assert items[i + 1] == rest[i];
  }

  /**
   * The loop stops where the handler's `try` ends: every row it adds comes from a piece
   * before the first malformed piece and before the first repeated product.
   */
  lemma {:induction false} ReconstructStops(items: seq<Parsed>, p: Products, draft: map<int, int>)
    ensures Reached(items, p, draft, Reconstruct(items, p, draft))
    decreases |items|
  {
    if |items| > 0 {
      var rest := items[1..];
      match items[0]
      case Malformed =>
      case Skip =>
        ReconstructStopsPass(items, p, draft);
      case Item(c) =>
        match FindByName(p, c.name)
        case None =>
          ReconstructStopsPass(items, p, draft);
        case Some(k) =>
          if k !in draft {
            ReconstructStopsInsert(items, p, draft, k);
          }
    }
  }

  /** `ReconstructStops` for a first piece that finds no product and is passed over. */
  lemma {:induction false} ReconstructStopsPass(items: seq<Parsed>, p: Products, draft: map<int, int>)
    requires |items| >= 1 && !items[0].Malformed? && Resolves(items[0], p).None?
    ensures Reached(items, p, draft, Reconstruct(items, p, draft))
    decreases |items|, 0
  {
    var rest := items[1..];
    var r := Reconstruct(items, p, draft);
    assert r == Reconstruct(rest, p, draft);
    ReconstructStops(rest, p, draft);
    forall k | k in r && k !in draft
      ensures FromPiece(items, p, draft, k, r[k])
    {
      FromPieceCons(items, p, draft, draft, k, r[k]);
    }
  }

  /** `ReconstructStops` for a first piece that finds a product `k` with no row yet. */
  lemma {:induction false} ReconstructStopsInsert(items: seq<Parsed>, p: Products, draft: map<int, int>, k: int)
    requires |items| >= 1 && Resolves(items[0], p) == Some(k) && k !in draft
    ensures Reached(items, p, draft, Reconstruct(items, p, draft))
    decreases |items|, 0
  {
    var rest := items[1..];
    var draft' := draft[k := items[0].c.qty];
    var r := Reconstruct(items, p, draft);
    assert r == Reconstruct(rest, p, draft');
    ReconstructStops(rest, p, draft');
    forall k' | k' in r && k' !in draft
      ensures FromPiece(items, p, draft, k', r[k'])
    {
      if k' == k {
        assert Unbroken(items, p, draft, 1);
      } else {
        FromPieceCons(items, p, draft, draft', k', r[k']);
      }
    }
  }

  /**
   * A piece that finds no product, a skipped piece or a name no product carries, can be
   * dropped without changing the rebuilt draft: the loop passes over it and goes on.
   */
  lemma {:induction false} ReconstructIgnoresUnresolved(items: seq<Parsed>, p: Products, draft: map<int, int>, i: int)
    requires 0 <= i < |items| && !items[i].Malformed? && Resolves(items[i], p).None?
    ensures Reconstruct(items[..i] + items[i + 1..], p, draft) == Reconstruct(items, p, draft)
    decreases i
  {
    var dropped := items[..i] + items[i + 1..];
    if i == 0 {
      assert dropped == items[1..];
    } else {
      var rest := items[1..];
      assert dropped[0] == items[0];
      assert dropped[1..] == rest[..i - 1] + rest[i..];
      match items[0]
      case Malformed =>
      case Skip =>
        ReconstructIgnoresUnresolved(rest, p, draft, i - 1);
      case Item(c) =>
        match FindByName(p, c.name)
        case None =>
          ReconstructIgnoresUnresolved(rest, p, draft, i - 1);
        case Some(k) =>
          if k !in draft {
            ReconstructIgnoresUnresolved(rest, p, draft[k := c.qty], i - 1);
          }
    }
  }

  /** Every quantity the parse produced is at least 1. */
  predicate PositiveItems(items: seq<Parsed>)
  {
    forall i :: 0 <= i < |items| && items[i].Item? ==> items[i].c.qty >= 1
  }

  /** Rebuilding from pieces whose quantities are all at least 1 stores no row below 1. */
  lemma ReconstructPositive(items: seq<Parsed>, p: Products)
    ensures PositiveItems(items) ==> Positive(Reconstruct(items, p, map[]))
  {
    var r := Reconstruct(items, p, map[]);
    if PositiveItems(items) {
      forall k | k in r
        ensures r[k] >= 1
      {
        assert Produced(items, p[k].name, r[k]);
        var i :| 0 <= i < |items| && items[i] == Item(Component(p[k].name, r[k]));
        assert items[i].Item?;
      }
    }
  }

  /**
   * `edit_bouquet_<pid>`: for an existing product the draft is cleared and rebuilt
   * from the product's description, and the edit marker is set; the cart row of the
   * product is left in place. A missing product changes nothing.
   */
  function Edit(s: Shop, pid: int): (r: Result<Shop, EditError>)
    ensures r.Failure? <==> pid !in s.products
    ensures r.Success? ==>
              && r.value.products == s.products && r.value.cart == s.cart
              && r.value.editing == Some(pid)
              && forall k :: k in r.value.draft ==>
                   k in s.products && Produced(ParseComposition(s.products[pid].description), s.products[k].name, r.value.draft[k])
    ensures r.Success? ==> Inserted(ParseComposition(s.products[pid].description), s.products, map[], r.value.draft)
    ensures r.Success? ==> Reached(ParseComposition(s.products[pid].description), s.products, map[], r.value.draft)
    ensures r.Success? && Valid(s) && PositiveItems(ParseComposition(s.products[pid].description)) ==> Valid(r.value)
  {
    if pid !in s.products then Failure(ProductNotFound)
    else
      var items := ParseComposition(s.products[pid].description);
      var draft := Reconstruct(items, s.products, map[]);
      ReconstructComplete(items, s.products, map[]);
      ReconstructStops(items, s.products, map[]);
      ReconstructPositive(items, s.products);
      Success(Shop(s.products, s.cart, draft, Some(pid)))
  }

  /**
   * `back_from_creation`. While editing, an empty draft deletes the edited bouquet's
   * cart row, and a non-empty one is written back into the edited product: its price
   * becomes the draft total (no packaging fee) and its description the composition.
   * In every case the draft is cleared and the edit marker dropped.
   */
  function SaveAndExit(s: Shop): (r: Shop)
    ensures r.draft == map[] && r.editing.None?
    ensures s.editing.None? ==> r.products == s.products && r.cart == s.cart
    ensures s.editing.Some? && s.draft.Keys * s.products.Keys == {} ==>
              r.products == s.products && r.cart == s.cart - {s.editing.value}
    ensures s.editing.Some? && s.draft.Keys * s.products.Keys != {} ==>
              var prev := s.editing.value;
              && r.cart == s.cart
              && r.products.Keys == s.products.Keys
              && (forall k :: k in s.products && k != prev ==> r.products[k] == s.products[k])
              && (prev in s.products ==>
                    r.products[prev] == s.products[prev].(price := Total(s.draft, s.products),
                                                        description := SaveDescription(ComponentsOf(Lines(s.draft, s.products)))))
    ensures Valid(s) ==> Valid(r)
  {
    match s.editing
    case None => s.(draft := map[])
    case Some(prev) =>
      LinesCover(s.draft, s.products);
      var lines := Lines(s.draft, s.products);
      if |lines| == 0 then Shop(s.products, s.cart - {prev}, map[], None)
      else
        assert lines[0].pid in Pids(lines);
        var products :=
          if prev in s.products
          then s.products[prev := s.products[prev].(price := Subtotal(lines), description := SaveDescription(ComponentsOf(lines)))]
          else s.products;
        Shop(products, s.cart, map[], None)
  }

  /** The pieces the parse yields for a listing's written components. */
  function ItemsOf(lines: seq<Line>): seq<Parsed>
  {
    var cs := ComponentsOf(lines);
    seq(|cs|, i requires 0 <= i < |cs| => Item(cs[i]))
  }

  lemma ItemsCons(x: Line, rest: seq<Line>)
    ensures ItemsOf([x] + rest) == [Item(Component(x.name, x.qty))] + ItemsOf(rest)
  {
    var items := ItemsOf([x] + rest);
    assert forall i :: 0 < i < |items| ==> items[i] == ItemsOf(rest)[i - 1];
  }

  /** One step of the edit loop over a piece whose name finds product `k` with no row yet. */
  lemma ReconstructStep(items: seq<Parsed>, q: Products, acc: map<int, int>, k: int, qty: int)
    requires UniqueNames(q) && k in q && k !in acc
    requires |items| >= 1 && items[0] == Item(Component(q[k].name, qty))
    ensures Reconstruct(items, q, acc) == Reconstruct(items[1..], q, acc[k := qty])
  {
    assert FindByName(q, q[k].name) == Some(k);
  }

  lemma JoinedStep(rows: map<int, int>, p: Products, acc: map<int, int>, k: int)
    requires k in rows && k in p
    ensures acc[k := rows[k]] + Joined(rows - {k}, p) == acc + Joined(rows, p)
  {
  }

  lemma JoinedSkip(rows: map<int, int>, p: Products, k: int)
    requires k !in p
    ensures Joined(rows - {k}, p) == Joined(rows, p)
  {
  }

  /**
   * Replaying the items of a listing rebuilds exactly the listed rows, as long as the
   * products table the names are looked up in has unique names and agrees on them.
   */
  lemma {:induction false} ReconstructLines(rows: map<int, int>, p: Products, q: Products, acc: map<int, int>)
    requires UniqueNames(q)
    requires forall k :: k in p ==> k in q && q[k].name == p[k].name
    requires forall k :: k in acc ==> k !in rows
    ensures Reconstruct(ItemsOf(Lines(rows, p)), q, acc) == acc + Joined(rows, p)
    decreases |rows|
  {
    if rows.Keys == {} {
      assert Lines(rows, p) == [];
      assert Joined(rows, p) == map[];
      assert acc + map[] == acc;
    } else {
      Keys.HasMember(rows.Keys);
      var k := Keys.Least(rows.Keys);
      var rows' := rows - {k};
      assert |rows'| < |rows| by {
        assert rows'.Keys == rows.Keys - {k};
      }
      var rest := Lines(rows', p);
      LinesHead(rows, p);
      if k in p {
        var x := LineOf(k, rows, p);
        assert Lines(rows, p) == [x] + rest;
        ItemsCons(x, rest);
        var items := ItemsOf([x] + rest);
        assert items[1..] == ItemsOf(rest);
        ReconstructStep(items, q, acc, k, rows[k]);
        ReconstructLines(rows', p, q, acc[k := rows[k]]);
        JoinedStep(rows, p, acc, k);
      } else {
        assert Lines(rows, p) == rest;
        ReconstructLines(rows', p, q, acc);
        JoinedSkip(rows, p, k);
      }
    }
  }

  /** The names in a draft the manifest can carry. */
  predicate SafeDraftNames(s: Shop)
  {
    forall k :: k in s.draft && k in s.products ==> SafeName(s.products[k].name)
  }

  /** A draft with safe names and positive quantities lists at least one line, and its manifest can be written. */
  lemma DraftWritable(s: Shop)
    requires Valid(s) && SafeDraftNames(s)
    requires s.draft.Keys * s.products.Keys != {}
    ensures |Lines(s.draft, s.products)| >= 1
    ensures Writable(ComponentsOf(Lines(s.draft, s.products)))
  {
    LinesCover(s.draft, s.products);
  }

  lemma ItemsOfComponents(lines: seq<Line>)
    ensures var cs := ComponentsOf(lines);
            seq(|cs|, i requires 0 <= i < |cs| => Item(cs[i])) == ItemsOf(lines)
  {
  }

  /** The edit handler parses what pack wrote into the items of the packed draft's lines. */
  lemma ParsePacked(s: Shop, packaging: bool)
    requires Valid(s) && SafeDraftNames(s)
    requires s.draft.Keys * s.products.Keys != {}
    ensures var lines := Lines(s.draft, s.products);
            ParseComposition(PackDescription(ComponentsOf(lines), packaging)) == ItemsOf(lines)
  {
    var lines := Lines(s.draft, s.products);
    DraftWritable(s);
    PackDescriptionRoundTrip(ComponentsOf(lines), packaging);
    ItemsOfComponents(lines);
  }

  /** The edit handler parses what save-and-exit wrote into the items of the saved draft's lines. */
  lemma ParseSaved(s: Shop)
    requires Valid(s) && SafeDraftNames(s)
    requires s.draft.Keys * s.products.Keys != {}
    ensures var lines := Lines(s.draft, s.products);
            ParseComposition(SaveDescription(ComponentsOf(lines))) == ItemsOf(lines)
  {
    var lines := Lines(s.draft, s.products);
    DraftWritable(s);
    SaveDescriptionRoundTrip(ComponentsOf(lines));
    ItemsOfComponents(lines);
  }

  /** Replaying a draft's items into an empty draft gives back its rows that join a product. */
  lemma ReadBack(s: Shop, q: Products)
    requires UniqueNames(q)
    requires forall k :: k in s.products ==> k in q && q[k].name == s.products[k].name
    ensures Reconstruct(ItemsOf(Lines(s.draft, s.products)), q, map[]) == Joined(s.draft, s.products)
  {
    ReconstructLines(s.draft, s.products, q, map[]);
    assert map[] + Joined(s.draft, s.products) == Joined(s.draft, s.products);
  }

  /**
   * Pack followed by edit of the packed bouquet rebuilds the draft that was packed
   * (its rows that joined a product), and marks the new bouquet as being edited.
   */
  lemma PackThenEditRestoresDraft(s: Shop, packaging: bool, suffix: int)
    requires Valid(s) && SafeDraftNames(s) && Packable(s, suffix)
    ensures var o := Pack(s, packaging, suffix).value;
            Edit(o.shop, o.id) == Success(o.shop.(draft := Joined(s.draft, s.products), editing := Some(o.id)))
  {
    var o := Pack(s, packaging, suffix).value;
    ParsePacked(s, packaging);
    ReadBack(s, o.shop.products);
  }

  /**
   * Save-and-exit of a non-empty draft followed by edit of the same bouquet rebuilds
   * the draft that was saved.
   */
  lemma SaveThenEditRestoresDraft(s: Shop)
    requires Valid(s) && SafeDraftNames(s)
    requires s.editing.Some? && s.draft.Keys * s.products.Keys != {}
    ensures var r := SaveAndExit(s);
            var prev := s.editing.value;
            Edit(r, prev) == Success(r.(draft := Joined(s.draft, s.products), editing := Some(prev)))
  {
    var r := SaveAndExit(s);
    var prev := s.editing.value;
    ParseSaved(s);
    ReadBack(s, r.products);
  }

  /** An edit that is abandoned with reset and back leaves the cart and the products as they were. */
  lemma AbandonedEditKeepsCart(s: Shop, pid: int)
    requires pid in s.products
    ensures var r := SaveAndExit(ResetDraft(Edit(s, pid).value));
            r.cart == s.cart && r.products == s.products && r.draft == map[] && r.editing.None?
  {
  }
}

=== FILE: cart.dfy ===
/** One user's cart: the `add_to_cart`, `remove_one_from_cart` and `clear_cart` helpers and the checkout handler. */
module Cart {
  import opened Wrappers
  import opened Catalog
  import opened Listing

  datatype CheckoutError = EmptyCart

  /** `add_to_cart`: an existing line grows by `qty`; otherwise a line with `qty` is inserted. */
  function AddToCart(cart: map<int, int>, pid: int, qty: int): (r: map<int, int>)
    ensures pid in r && r[pid] == Get(cart, pid) + qty
    ensures forall k :: k != pid ==> (k in r <==> k in cart)
    ensures forall k :: k in cart && k != pid ==> r[k] == cart[k]
    ensures Positive(cart) && qty >= 1 ==> Positive(r)
  {
    if pid in cart then cart[pid := cart[pid] + qty] else cart[pid := qty]
  }

  /** `remove_one_from_cart`: a line above 1 loses one unit, a line at 1 is deleted, a missing line is left alone. */
  function RemoveOne(cart: map<int, int>, pid: int): (r: map<int, int>)
    ensures pid !in cart ==> r == cart
    ensures pid in cart && cart[pid] > 1 ==> pid in r && r[pid] == cart[pid] - 1
    ensures pid in cart && cart[pid] <= 1 ==> pid !in r
    ensures forall k :: k != pid ==> (k in r <==> k in cart)
    ensures forall k :: k in cart && k != pid ==> r[k] == cart[k]
    ensures Positive(cart) ==> Positive(r)
  {
    if pid !in cart then cart
    else if cart[pid] > 1 then cart[pid := cart[pid] - 1]
    else cart - {pid}
  }

  /** `clear_cart`: every line of the user goes. */
  function ClearCart(cart: map<int, int>): (r: map<int, int>)
    ensures forall k :: k !in r
  {
    map[]
  }

  /** Adding one unit and then removing one unit gives back the cart. */
  lemma AddThenRemoveOne(cart: map<int, int>, pid: int)
    requires Positive(cart)
    ensures RemoveOne(AddToCart(cart, pid, 1), pid) == cart
  {
  }

  /** Removing one unit from a present line and adding it back gives back the cart. */
  lemma RemoveOneThenAdd(cart: map<int, int>, pid: int)
    requires Positive(cart) && pid in cart
    ensures AddToCart(RemoveOne(cart, pid), pid, 1) == cart
  {
  }

  /**
   * The checkout handler: a cart with no line that joins a product is reported
   * empty and left as it is; otherwise the cart is cleared.
   */
  function Checkout(cart: map<int, int>, p: Products): (r: Result<map<int, int>, CheckoutError>)
    ensures r.Failure? <==> cart.Keys * p.Keys == {}
    ensures r.Success? ==> r.value == map[]
  {
    LinesCover(cart, p);
    var lines := Lines(cart, p);
    if |lines| == 0 then Failure(EmptyCart)
    else
      assert lines[0].pid in Pids(lines);
      Success(ClearCart(cart))
  }
}

=== FILE: catalog.dfy ===
/** The products table: rows keyed by identifier, names unique. */
module Catalog {
  import opened Wrappers
  import Keys

  /** The `type` column: "lonely" (single flowers), "bouquet" (fixed bouquets), "created_bouquet" (packed by a user). */
  datatype Kind = Lonely | Bouquet | CreatedBouquet

  /** A row of the products table (the image column is not modelled). */
  datatype Product = Product(name: string, price: int, description: string, kind: Kind)

  type Products = map<int, Product>

  /** The UNIQUE constraint on the products' name column. */
  predicate UniqueNames(p: Products)
  {
    forall i, j :: i in p && j in p && p[i].name == p[j].name ==> i == j
  }

  /** `SELECT id FROM products WHERE name = ?` followed by `fetchone()`. */
  function FindByName(p: Products, name: string): (r: Option<int>)
    ensures r.Some? ==> r.value in p && p[r.value].name == name
    ensures r.None? <==> forall k :: k in p ==> p[k].name != name
    ensures UniqueNames(p) ==> forall k :: k in p && p[k].name == name ==> r == Some(k)
  {
    var ids := set k | k in p && p[k].name == name;
    if ids == {} then
      assert forall k :: k in p && p[k].name == name ==> k in ids;
      None
    else
      Keys.HasMember(ids);
      Some(Keys.Least(ids))
  }

  /**
   * The identifier SQLite's AUTOINCREMENT gives the next inserted product:
   * one more than the largest identifier in use, since products are never deleted.
   */
  function NextId(p: Products): (r: int)
    ensures r >= 1
    ensures forall k :: k in p ==> k < r
  {
    if p.Keys == {} then 1
    else
      var g := Keys.Greatest(p.Keys);
      if g < 1 then 1 else g + 1
  }
}

=== FILE: draft.dfy ===
/** One user's bouquet draft and the `bq_add` / `bq_sub` / `bq_del` adjustments of it. */
module Draft {
  import opened Catalog
  import opened Listing

  /**
   * The action word of a `bq_<action>_<pid>[_<n>]` button. `Keep` stands for any
   * other word: the handler then leaves the computed quantity at the current one.
   */
  datatype Action = Add(n: int) | Sub(n: int) | Del | Keep

  /** The quantity the handler computes from the current one (0 when the row is absent). */
  function Target(cur: int, a: Action): int
  {
    match a
    case Add(n) => cur + n
    case Sub(n) => cur - n
    case Del => 0
    case Keep => cur
  }

  /** A `bq_*` button: the row is deleted when the computed quantity is not positive, upserted otherwise. */
  function Adjust(draft: map<int, int>, pid: int, a: Action): (r: map<int, int>)
    ensures pid in r <==> Target(Get(draft, pid), a) > 0
    ensures pid in r ==> r[pid] == Target(Get(draft, pid), a)
    ensures forall k :: k != pid ==> (k in r <==> k in draft)
    ensures forall k :: k in draft && k != pid ==> r[k] == draft[k]
    ensures Positive(draft) ==> Positive(r)
  {
    var q := Target(Get(draft, pid), a);
    if q <= 0 then draft - {pid} else draft[pid := q]
  }

  /** Pressing "+n" and then "-n" on the same flower gives back the draft. */
  lemma AddThenSub(draft: map<int, int>, pid: int, n: int)
    requires Positive(draft) && n >= 1
    ensures Adjust(Adjust(draft, pid, Add(n)), pid, Sub(n)) == draft
  {
  }

  /** An adjustment changes the draft total by the price of exactly the units added or removed. */
  lemma AdjustTotal(draft: map<int, int>, p: Products, pid: int, a: Action)
    ensures var r := Adjust(draft, pid, a);
            Total(r, p) == Total(draft, p) + Value(pid, Get(r, pid) - Get(draft, pid), p)
  {
    var r := Adjust(draft, pid, a);
    assert r - {pid} == draft - {pid};
    if pid in draft {
      TotalRemove(draft, p, pid);
    } else {
      TotalRemoveAbsent(draft, p, pid);
    }
    if pid in r {
      TotalRemove(r, p, pid);
    } else {
      TotalRemoveAbsent(r, p, pid);
    }
    ValueAdd(pid, Get(draft, pid), Get(r, pid) - Get(draft, pid), p);
  }
}

=== FILE: keys.dfy ===
/** Least and greatest elements of finite sets of row identifiers. */
module Keys {

  /** A set that is not empty has a member to pick. */
  lemma HasMember(s: set<int>)
    requires s != {}
    ensures exists x :: x in s
  {
    if !(exists x :: x in s) {
      assert false;
    }
  }

  lemma HasLeast(s: set<int>)
    requires s != {}
    ensures exists k :: k in s && forall j :: j in s ==> k <= j
    decreases |s|
  {
    HasMember(s);
    var x :| x in s;
    var rest := s - {x};
    if rest == {} {
      forall j | j in s
        ensures x <= j
      {
        assert j !in rest;
      }
    } else {
      HasLeast(rest);
      var m :| m in rest && forall j :: j in rest ==> m <= j;
      var g := if x < m then x else m;
      forall j | j in s
        ensures g <= j
      {
        if j != x {
          assert j in rest;
        }
      }
      assert g in s;
    }
  }

  lemma HasGreatest(s: set<int>)
    requires s != {}
    ensures exists k :: k in s && forall j :: j in s ==> j <= k
    decreases |s|
  {
    HasMember(s);
    var x :| x in s;
    var rest := s - {x};
    if rest == {} {
      forall j | j in s
        ensures j <= x
      {
        assert j !in rest;
      }
    } else {
      HasGreatest(rest);
      var m :| m in rest && forall j :: j in rest ==> j <= m;
      var g := if m < x then x else m;
      forall j | j in s
        ensures j <= g
      {
        if j != x {
          assert j in rest;
        }
      }
      assert g in s;
    }
  }

  /** The smallest identifier of a non-empty set. */
  function Least(s: set<int>): (k: int)
    requires s != {}
    ensures k in s && forall j :: j in s ==> k <= j
  {
    HasLeast(s);
    var k :| k in s && forall j :: j in s ==> k <= j; k
  }

  /** The largest identifier of a non-empty set. */
  function Greatest(s: set<int>): (k: int)
    requires s != {}
    ensures k in s && forall j :: j in s ==> j <= k
  {
    HasGreatest(s);
    var k :| k in s && forall j :: j in s ==> j <= k; k
  }
}

=== FILE: listing.dfy ===
/**
 * Listing and pricing of one user's cart or draft rows, as the handlers'
 * `... JOIN products p ON p.id = product_id WHERE user_id = ?` queries see them.
 */
module Listing {
  import opened Catalog
  import Keys

  /** Every stored quantity is at least 1: a row is deleted rather than left at zero or below. */
  predicate Positive(rows: map<int, int>)
  {
    forall k :: k in rows ==> rows[k] >= 1
  }

  /** The quantity stored for `k`, or 0 when the row is absent (`row[0] if row else 0`). */
  function Get(m: map<int, int>, k: int): int
  {
    if k in m then m[k] else 0
  }

  /** A cart or draft row joined with its product. */
  datatype Line = Line(pid: int, name: string, price: int, qty: int)

  /** The line a row `k` produces when it joins a product. */
  function LineOf(k: int, rows: map<int, int>, p: Products): Line
    requires k in rows && k in p
  {
    Line(k, p[k].name, p[k].price, rows[k])
  }

  function Pids(lines: seq<Line>): set<int>
  {
    set i | 0 <= i < |lines| :: lines[i].pid
  }

  /**
   * The rows that join a product, in ascending product id (`ORDER BY p.id`).
   * Rows whose product is missing drop out of the join.
   */
  function Lines(rows: map<int, int>, p: Products): (r: seq<Line>)
    ensures forall i :: 0 <= i < |r| ==> r[i].pid in rows && r[i].pid in p && r[i] == LineOf(r[i].pid, rows, p)
    ensures forall i, j :: 0 <= i < j < |r| ==> r[i].pid < r[j].pid
    decreases |rows|
  {
    if rows.Keys == {} then []
    else
      Keys.HasMember(rows.Keys);
      var k := Keys.Least(rows.Keys);
      var rows' := rows - {k};
      var rest := Lines(rows', p);
      assert rows.Keys == rows'.Keys + {k};
      assert forall i :: 0 <= i < |rest| ==> rest[i].pid in rows && k < rest[i].pid && rest[i] == LineOf(rest[i].pid, rows, p);
      if k in p then
        var r := [LineOf(k, rows, p)] + rest;
        assert forall i :: 0 < i < |r| ==> r[i] == rest[i - 1];
        r
      else
        rest
  }

  /** Exactly the rows whose product exists are listed. */
  lemma {:induction false} LinesCover(rows: map<int, int>, p: Products)
    ensures Pids(Lines(rows, p)) == rows.Keys * p.Keys
    decreases |rows|
  {
    if rows.Keys != {} {
      Keys.HasMember(rows.Keys);
      var k := Keys.Least(rows.Keys);
      var rows' := rows - {k};
      LinesCover(rows', p);
      assert rows.Keys == rows'.Keys + {k};
      if k in p {
        PidsCons(LineOf(k, rows, p), Lines(rows', p));
      }
    } else {
      assert Lines(rows, p) == [];
    }
  }

  lemma PidsCons(x: Line, rest: seq<Line>)
    ensures Pids([x] + rest) == {x.pid} + Pids(rest)
  {
    var r := [x] + rest;
    forall y | y in Pids(rest)
      ensures y in Pids(r)
    {
      var i :| 0 <= i < |rest| && rest[i].pid == y;
      assert r[i + 1] == rest[i];
    }
    forall y | y in Pids(r)
      ensures y in {x.pid} + Pids(rest)
    {
      var i :| 0 <= i < |r| && r[i].pid == y;
      if i > 0 {
        assert rest[i - 1] == r[i];
      }
    }
    assert r[0] == x;
  }

  /** The rows that join a product, as a map: what a listing of `rows` shows. */
  function Joined(rows: map<int, int>, p: Products): (r: map<int, int>)
    ensures r.Keys == rows.Keys * p.Keys
    ensures forall k :: k in r ==> r[k] == rows[k]
  {
    map k | k in rows && k in p :: rows[k]
  }

  /** `sum(qty * price ...)` over listed lines. */
  function Subtotal(lines: seq<Line>): int
  {
    if |lines| == 0 then 0 else lines[0].price * lines[0].qty + Subtotal(lines[1..])
  }

  /** The value of a cart or draft: price × quantity summed over the rows that join a product. */
  function Total(rows: map<int, int>, p: Products): int
  {
    Subtotal(Lines(rows, p))
  }

  /** What a row for `k` with quantity `q` adds to a total. */
  function Value(k: int, q: int, p: Products): int
  {
    if k in p then p[k].price * q else 0
  }

  /** Unfolding `Lines` once at its least row. */
  lemma LinesHead(rows: map<int, int>, p: Products)
    requires rows.Keys != {}
    ensures var k := Keys.Least(rows.Keys);
            Lines(rows, p) == (if k in p then [LineOf(k, rows, p)] else []) + Lines(rows - {k}, p)
  {
  }

  /** Unfolding `Total` once at its least row. */
  lemma TotalHead(rows: map<int, int>, p: Products)
    requires rows.Keys != {}
    ensures Total(rows, p) == Value(Keys.Least(rows.Keys), rows[Keys.Least(rows.Keys)], p)
                              + Total(rows - {Keys.Least(rows.Keys)}, p)
  {
    var k := Keys.Least(rows.Keys);
    var rest := Lines(rows - {k}, p);
    if k in p {
      assert Lines(rows, p) == [LineOf(k, rows, p)] + rest;
      assert ([LineOf(k, rows, p)] + rest)[1..] == rest;
    }
  }

  /** A total does not depend on the order rows are listed in: any row can be taken out first. */
  lemma {:induction false} TotalRemove(rows: map<int, int>, p: Products, k: int)
    requires k in rows
    ensures Total(rows, p) == Total(rows - {k}, p) + Value(k, rows[k], p)
    decreases |rows|
  {
    var k0 := Keys.Least(rows.Keys);
    TotalHead(rows, p);
    if k != k0 {
      var smaller := rows - {k0};
      assert |smaller| < |rows| by {
        assert smaller.Keys == rows.Keys - {k0};
      }
      TotalRemove(smaller, p, k);
      var without := rows - {k};
      assert k0 in without.Keys && forall j :: j in without.Keys ==> k0 <= j;
      assert Keys.Least(without.Keys) == k0;
      TotalHead(without, p);
      assert without - {k0} == smaller - {k};
    }
  }

  /** Adding a row for a product that was not in the cart or draft adds exactly its value. */
  lemma TotalInsert(rows: map<int, int>, p: Products, k: int, q: int)
    requires k !in rows
    ensures Total(rows[k := q], p) == Total(rows, p) + Value(k, q, p)
  {
    TotalRemove(rows[k := q], p, k);
    assert rows[k := q] - {k} == rows;
  }

  /** A product row that no cart or draft row references does not change the listing. */
  lemma {:induction false} LinesFreshProduct(rows: map<int, int>, p: Products, n: int, x: Product)
    requires n !in rows
    ensures Lines(rows, p[n := x]) == Lines(rows, p)
    decreases |rows|
  {
    if rows.Keys != {} {
      var k := Keys.Least(rows.Keys);
      LinesFreshProduct(rows - {k}, p, n, x);
    }
  }

  lemma TotalFreshProduct(rows: map<int, int>, p: Products, n: int, x: Product)
    requires n !in rows
    ensures Total(rows, p[n := x]) == Total(rows, p)
  {
    LinesFreshProduct(rows, p, n, x);
  }

  /** Quantity-wise sum of two sets of rows: the draft and the cart taken together as one basket. */
  function Merge(a: map<int, int>, b: map<int, int>): (r: map<int, int>)
    ensures r.Keys == a.Keys + b.Keys
    ensures forall k :: k in r ==> r[k] == Get(a, k) + Get(b, k)
  {
    map k | k in a.Keys + b.Keys :: Get(a, k) + Get(b, k)
  }

  lemma MergeRemove(a: map<int, int>, b: map<int, int>, k: int)
    ensures Merge(a, b) - {k} == Merge(a - {k}, b - {k})
  {
  }

  lemma TotalRemoveAbsent(m: map<int, int>, p: Products, k: int)
    requires k !in m
    ensures Total(m - {k}, p) == Total(m, p)
  {
    assert m - {k} == m;
  }

  lemma ValueAdd(k: int, x: int, y: int, p: Products)
    ensures Value(k, x + y, p) == Value(k, x, p) + Value(k, y, p)
  {
    if k in p {
      assert p[k].price * (x + y) == p[k].price * x + p[k].price * y;
    }
  }

  /** Taking any id out of a set of rows, present or not, takes out the value of its row. */
  lemma TotalRemoveGet(m: map<int, int>, p: Products, k: int)
    ensures Total(m, p) == Total(m - {k}, p) + Value(k, Get(m, k), p)
  {
    if k in m {
      TotalRemove(m, p, k);
    } else {
      TotalRemoveAbsent(m, p, k);
    }
  }

  lemma MergeSplit(a: map<int, int>, b: map<int, int>, p: Products, k: int)
    ensures Total(Merge(a, b), p) == Total(Merge(a - {k}, b - {k}), p) + Value(k, Get(a, k) + Get(b, k), p)
  {
    var m := Merge(a, b);
    TotalRemoveGet(m, p, k);
    MergeRemove(a, b, k);
    assert Get(m, k) == Get(a, k) + Get(b, k);
  }

  lemma MergeEmpty(a: map<int, int>, b: map<int, int>)
    requires a.Keys == {}
    ensures Merge(a, b) == b
  {
  }

  /** The total of a merged basket is the sum of the two totals. */
  lemma {:induction false} TotalMerge(a: map<int, int>, b: map<int, int>, p: Products)
    ensures Total(Merge(a, b), p) == Total(a, p) + Total(b, p)
    decreases |a|
  {
    if a.Keys == {} {
      MergeEmpty(a, b);
      assert Lines(a, p) == [];
    } else {
      Keys.HasMember(a.Keys);
      var k :| k in a;
      var a' := a - {k};
      assert |a'| < |a| by {
        assert a'.Keys == a.Keys - {k};
      }
      TotalMerge(a', b - {k}, p);
      MergeSplit(a, b, p, k);
      TotalRemoveGet(a, p, k);
      TotalRemoveGet(b, p, k);
      ValueAdd(k, Get(a, k), Get(b, k), p);
    }
  }
}

=== FILE: manifest.dfy ===
/**
 * The text manifest a composed bouquet carries in its description: the writer
 * used by pack and save-and-exit, the parser used by the edit handler, and the
 * round trip between them.
 */
module Manifest {
  import opened Wrappers
  import opened Text

  /** One constituent of a composed bouquet: a product name and a quantity. */
  datatype Component = Component(name: string, qty: int)

  /** What the edit handler makes of one comma-separated piece of the composition. */
  datatype Parsed =
    | Item(c: Component)  // "<name> (<digits>)"
    | Skip                // no parentheses, or a quantity that is not all digits: ignored
    | Malformed           // '(' and ')' present but no " (": the handler's `try` ends the parse here

  const Marker: string := "Состав: "
  const PackedText: string := "В упаковке"
  const UnpackedText: string := "Без упаковки"

  /** `f"{name} ({qty})"`. */
  function Part(c: Component): string
  {
    c.name + " (" + IntStr(c.qty) + ")"
  }

  function Parts(cs: seq<Component>): seq<string>
  {
    seq(|cs|, i requires 0 <= i < |cs| => Part(cs[i]))
  }

  /** `"Состав: " + ", ".join(parts)`, the sentence both writers start with. */
  function Composition(cs: seq<Component>): string
  {
    Marker + Join(Parts(cs), ", ")
  }

  /** The description pack writes: the composition, then the packaging sentence. */
  function PackDescription(cs: seq<Component>, packaging: bool): (r: string)
    ensures |r| > |Marker| && r[..|Marker|] == Marker
    ensures r[|r| - 1] == '.'
  {
    Composition(cs) + ". " + (if packaging then PackedText else UnpackedText) + "."
  }

  /** The description save-and-exit writes: the composition alone. */
  function SaveDescription(cs: seq<Component>): (r: string)
    ensures |r| > |Marker| && r[..|Marker|] == Marker
    ensures r[|r| - 1] == '.'
  {
    Composition(cs) + "."
  }

  /**
   * One stripped piece: it needs both parentheses; the name is what precedes the
   * first " (", the quantity what follows it up to the next " (", with every ')' removed.
   */
  function ParseItem(s: string): (r: Parsed)
    ensures !('(' in s && ')' in s) ==> r == Skip
    ensures r.Item? ==> r.c.qty >= 0
  {
    if '(' in s && ')' in s then
      var halves := Split(s, " (");
      if |halves| < 2 then Malformed
      else
        var q := RemoveAll(halves[1], ')');
        if IsDigits(q) then Item(Component(halves[0], DigitsValue(q))) else Skip
    else Skip
  }

  /**
   * A piece with both parentheses is malformed exactly when it holds no " ("; an item's
   * name is exactly the text before the first " (".
   */
  lemma ParseItemCases(s: string)
    ensures ParseItem(s).Malformed? <==> '(' in s && ')' in s && Find(s, " (").None?
    ensures ParseItem(s).Item? ==> Find(s, " (") == Some(|ParseItem(s).c.name|) && ParseItem(s).c.name == s[..|ParseItem(s).c.name|]
  {
    SplitParts(s, " (");
  }

  /** `description.split("Состав: ")[-1].split(".")[0]`: the text after the last marker, up to the first '.'. */
  function Body(desc: string): string
  {
    Split(Last(Split(desc, Marker)), ".")[0]
  }

  function StripAll(raw: seq<string>): seq<string>
  {
    seq(|raw|, i requires 0 <= i < |raw| => Strip(raw[i]))
  }

  /** The body split on ',', each piece stripped. */
  function Pieces(desc: string): seq<string>
  {
    StripAll(Split(Body(desc), ","))
  }

  /** No piece holds a ',' (the pieces are what lies between them) or a '.' (the body ends at the first one). */
  lemma PiecesChars(desc: string)
    ensures forall i :: 0 <= i < |Pieces(desc)| ==> ',' !in Pieces(desc)[i] && '.' !in Pieces(desc)[i]
  {
    var body := Body(desc);
    SplitParts(Last(Split(desc, Marker)), ".");
    NoOccursNoChar(body, '.');
    var raw := Split(body, ",");
    SplitParts(body, ",");
    forall i | 0 <= i < |raw|
      ensures ',' !in Strip(raw[i]) && '.' !in Strip(raw[i])
    {
      NoOccursNoChar(raw[i], ',');
      StripShape(raw[i]);
    }
  }

  function ParseAll(ps: seq<string>): seq<Parsed>
  {
    seq(|ps|, i requires 0 <= i < |ps| => ParseItem(ps[i]))
  }

  /** The edit handler's reading of a description, piece by piece. */
  function ParseComposition(desc: string): (r: seq<Parsed>)
    ensures |r| >= 1
    ensures forall i :: 0 <= i < |r| && r[i].Item? ==> r[i].c.qty >= 0
  {
    ParseAll(Pieces(desc))
  }

  /**
   * No name the parse reads contains ',' or '.': the body is cut at the first '.' and
   * split at every ','. This is why a writable name must avoid both.
   */
  lemma ParsedNamesClean(desc: string)
    ensures var r := ParseComposition(desc);
            forall i :: 0 <= i < |r| && r[i].Item? ==> ',' !in r[i].c.name && '.' !in r[i].c.name
  {
    var ps := Pieces(desc);
    var r := ParseComposition(desc);
    PiecesChars(desc);
    forall i | 0 <= i < |r| && r[i].Item?
      ensures ',' !in r[i].c.name && '.' !in r[i].c.name
    {
      assert r[i] == ParseItem(ps[i]);
      ParseItemCases(ps[i]);
      var n := r[i].c.name;
      assert n == ps[i][..|n|];
      SliceChars(ps[i], 0, |n|);
    }
  }

  /** A name one written piece `name (qty)` can be read back from: it holds no " (". */
  predicate PieceName(n: string)
  {
    forall j :: 0 <= j < |n| ==> !Occurs(n, " (", j)
  }

  /**
   * A product name the manifest carries through a write and a parse of a whole
   * description: non-empty, not starting with whitespace, free of ',', '.' and ':',
   * and without " (".
   */
  predicate SafeName(n: string)
  {
    && |n| > 0
    && !IsSpace(n[0])
    && ',' !in n && '.' !in n && ':' !in n
    && PieceName(n)
  }

  /** Components a write can be parsed back from. */
  predicate Writable(cs: seq<Component>)
  {
    forall i :: 0 <= i < |cs| ==> SafeName(cs[i].name) && cs[i].qty >= 0
  }

  // ----- facts about the Python primitives on the shapes the writer produces -----

  lemma FindAt(s: string, pat: string, i: nat)
    requires |pat| > 0
    requires Occurs(s, pat, i)
    requires forall j :: 0 <= j < i ==> !Occurs(s, pat, j)
    ensures Find(s, pat) == Some(i)
  {
  }

  /** A separator with a character the text lacks does not split it. */
  lemma SplitAbsent(s: string, pat: string, idx: int)
    requires |pat| > 0 && 0 <= idx < |pat| && pat[idx] !in s
    ensures Split(s, pat) == [s]
  {
  }

  /** The first occurrence of a one-character separator ends the first piece. */
  lemma SplitCharFirst(a: string, c: char, b: string)
    requires c !in a
    ensures Split(a + [c] + b, [c]) == [a] + Split(b, [c])
  {
    var s := a + [c] + b;
    forall j | 0 <= j < |a|
      ensures !Occurs(s, [c], j)
    {
      assert s[j..j + 1][0] == a[j];
    }
    assert s[|a|..|a| + 1] == [c];
    FindAt(s, [c], |a|);
    assert s[..|a|] == a;
    assert s[|a| + 1..] == b;
  }

  lemma NoCharInDigits(s: string, x: char)
    requires IsDigits(s) && !IsDigit(x)
    ensures x !in s
  {
  }

  lemma PartChars(c: Component, x: char)
    requires SafeName(c.name) && c.qty >= 0
    requires x in {',', '.', ':'}
    ensures x !in Part(c)
  {
    NoCharInDigits(IntStr(c.qty), x);
  }

  lemma {:induction false} JoinAbsent(xs: seq<string>, sep: string, x: char)
    requires x !in sep
    requires forall i :: 0 <= i < |xs| ==> x !in xs[i]
    ensures x !in Join(xs, sep)
    decreases |xs|
  {
    if |xs| > 1 {
      JoinAbsent(xs[1..], sep, x);
    }
  }

  lemma CompositionBodyAbsent(cs: seq<Component>, x: char)
    requires Writable(cs)
    requires x in {'.', ':'}
    ensures x !in Join(Parts(cs), ", ")
  {
    var ps := Parts(cs);
    forall i | 0 <= i < |ps|
      ensures x !in ps[i]
    {
      PartChars(cs[i], x);
    }
    JoinAbsent(ps, ", ", x);
  }

  /** Splitting `pre + ", ".join(xs)` on ',' gives back the parts, each after the first with its leading blank. */
  lemma {:induction false} SplitJoined(pre: string, xs: seq<string>)
    requires |xs| >= 1
    requires ',' !in pre
    requires forall i :: 0 <= i < |xs| ==> ',' !in xs[i]
    ensures var r := Split(pre + Join(xs, ", "), ",");
            && |r| == |xs|
            && r[0] == pre + xs[0]
            && forall i :: 1 <= i < |xs| ==> r[i] == " " + xs[i]
    decreases |xs|
  {
    if |xs| == 1 {
      SplitAbsent(pre + xs[0], ",", 0);
    } else {
      var tail := Join(xs[1..], ", ");
      assert pre + Join(xs, ", ") == (pre + xs[0]) + [','] + (" " + tail);
      SplitCharFirst(pre + xs[0], ',', " " + tail);
      SplitJoined(" ", xs[1..]);
      var r := Split(pre + Join(xs, ", "), ",");
      var r' := Split(" " + tail, ",");
      assert r == [pre + xs[0]] + r';
      forall i | 1 <= i < |xs|
        ensures r[i] == " " + xs[i]
      {
        assert r[i] == r'[i - 1] && xs[1..][i - 1] == xs[i];
      }
    }
  }

  lemma StripPart(c: Component)
    requires SafeName(c.name) && c.qty >= 0
    ensures Strip(Part(c)) == Part(c)
    ensures Strip(" " + Part(c)) == Part(c)
  {
    var s := Part(c);
    assert s[0] == c.name[0];
    assert s[|s| - 1] == ')';
    assert LStrip(s) == s;
    assert (" " + s)[1..] == s;
    assert LStrip(" " + s) == LStrip(s);
  }

  /** No " (" starts inside a name that holds none, when the name is followed by " (". */
  lemma NameHoldsNoSep(n: string, rest: string, j: int)
    requires PieceName(n)
    requires 0 <= j < |n|
    ensures !Occurs(n + " (" + rest, " (", j)
  {
    var s := n + " (" + rest;
    if j + 1 < |n| {
      assert s[j..j + 2] == n[j..j + 2];
      assert !Occurs(n, " (", j);
    } else {
      assert s[j..j + 2][1] == s[j + 1] == ' ';
    }
  }

  /** The first " (" of a written part is the one after the name. */
  lemma SplitPart(c: Component)
    requires PieceName(c.name) && c.qty >= 0
    ensures Split(Part(c), " (") == [c.name, IntStr(c.qty) + ")"]
  {
    var n := c.name;
    var tail := IntStr(c.qty) + ")";
    var s := n + " (" + tail;
    assert Part(c) == s;
    forall j | 0 <= j < |n|
      ensures !Occurs(s, " (", j)
    {
      NameHoldsNoSep(n, tail, j);
    }
    assert s[|n|..|n| + 2] == " (";
    FindAt(s, " (", |n|);
    assert s[..|n|] == n;
    assert s[|n| + 2..] == tail;
    NoCharInDigits(IntStr(c.qty), ' ');
    SplitAbsent(tail, " (", 0);
  }

  lemma DropParen(digits: string)
    requires IsDigits(digits)
    ensures RemoveAll(digits + ")", ')') == digits
  {
    RemoveAllAppend(digits, ")", ')');
    NoCharInDigits(digits, ')');
    RemoveAllAbsent(digits, ')');
    assert RemoveAll(")", ')') == "";
  }

  /**
   * One written piece reads back as the component it was written from, whatever the
   * name holds besides " (": ',', '.', ':' and leading blanks only matter once the
   * piece sits inside a whole description.
   */
  lemma ParseItemPart(c: Component)
    requires PieceName(c.name) && c.qty >= 0
    ensures ParseItem(Part(c)) == Item(c)
  {
    var s := Part(c);
    assert s[|c.name| + 1] == '(' && s[|s| - 1] == ')';
    SplitPart(c);
    DropParen(IntStr(c.qty));
  }

  /**
   * The marker opens the description and does not occur again, and the first '.'
   * after it closes the body.
   */
  lemma BodyAfterMarker(body: string, tail: string)
    requires ':' !in body && '.' !in body && ':' !in tail
    ensures Body(Marker + body + "." + tail) == body
  {
    var rest := body + "." + tail;
    var desc := Marker + rest;
    assert Marker + body + "." + tail == desc;
    assert desc[0..|Marker|] == Marker;
    FindAt(desc, Marker, 0);
    assert desc[|Marker|..] == rest;
    assert Marker[6] == ':';
    assert ':' !in rest;
    SplitAbsent(rest, Marker, 6);
    assert Split(desc, Marker) == [""] + [rest];
    assert rest == body + ['.'] + tail;
    SplitCharFirst(body, '.', tail);
  }

  /** The body of a written description is the joined parts. */
  lemma BodyOfDescription(cs: seq<Component>, tail: string)
    requires Writable(cs)
    requires ':' !in tail
    ensures Body(Composition(cs) + "." + tail) == Join(Parts(cs), ", ")
  {
    var body := Join(Parts(cs), ", ");
    CompositionBodyAbsent(cs, ':');
    CompositionBodyAbsent(cs, '.');
    assert Composition(cs) + "." + tail == Marker + body + "." + tail;
    BodyAfterMarker(body, tail);
  }

  /** Splitting the composition on ',' gives the written parts, each after the first with its leading blank. */
  lemma SplitComposition(cs: seq<Component>)
    requires |cs| >= 1 && Writable(cs)
    ensures var r := Split(Join(Parts(cs), ", "), ",");
            && |r| == |cs|
            && r[0] == Part(cs[0])
            && forall i :: 1 <= i < |cs| ==> r[i] == " " + Part(cs[i])
  {
    var parts := Parts(cs);
    forall i | 0 <= i < |parts|
      ensures ',' !in parts[i]
    {
      PartChars(cs[i], ',');
    }
    SplitJoined("", parts);
    assert "" + Join(parts, ", ") == Join(parts, ", ");
  }

  lemma StripParts(cs: seq<Component>, raw: seq<string>)
    requires Writable(cs)
    requires |raw| == |cs| && |cs| >= 1
    requires raw[0] == Part(cs[0])
    requires forall i :: 1 <= i < |cs| ==> raw[i] == " " + Part(cs[i])
    ensures |StripAll(raw)| == |cs| && forall i :: 0 <= i < |cs| ==> StripAll(raw)[i] == Part(cs[i])
  {
    forall i | 0 <= i < |cs|
      ensures StripAll(raw)[i] == Part(cs[i])
    {
      assert SafeName(cs[i].name) && cs[i].qty >= 0;
      StripPart(cs[i]);
      if i == 0 {
        assert raw[i] == Part(cs[i]);
      } else {
        assert raw[i] == " " + Part(cs[i]);
      }
    }
  }

  /** The stripped pieces between the commas of the composition are the written parts. */
  lemma PiecesOfComposition(cs: seq<Component>, tail: string)
    requires |cs| >= 1 && Writable(cs)
    requires ':' !in tail
    ensures var ps := Pieces(Composition(cs) + "." + tail);
            |ps| == |cs| && forall i :: 0 <= i < |cs| ==> ps[i] == Part(cs[i])
  {
    var desc := Composition(cs) + "." + tail;
    BodyOfDescription(cs, tail);
    SplitComposition(cs);
    StripParts(cs, Split(Join(Parts(cs), ", "), ","));
  }

  lemma ParseParts(cs: seq<Component>)
    requires Writable(cs)
    ensures ParseAll(Parts(cs)) == seq(|cs|, i requires 0 <= i < |cs| => Item(cs[i]))
  {
    forall i | 0 <= i < |cs|
      ensures ParseItem(Part(cs[i])) == Item(cs[i])
    {
      ParseItemPart(cs[i]);
    }
  }

  /**
   * The round trip: whatever follows the composition's closing '.', as long as it
   * holds no ':', the edit handler's parse recovers every written component, in order.
   */
  lemma RoundTrip(cs: seq<Component>, tail: string)
    requires |cs| >= 1 && Writable(cs)
    requires ':' !in tail
    ensures ParseComposition(Composition(cs) + "." + tail) == seq(|cs|, i requires 0 <= i < |cs| => Item(cs[i]))
  {
    var desc := Composition(cs) + "." + tail;
    PiecesOfComposition(cs, tail);
    assert Pieces(desc) == Parts(cs);
    ParseParts(cs);
  }

  /** What pack writes, the edit handler reads back. */
  lemma PackDescriptionRoundTrip(cs: seq<Component>, packaging: bool)
    requires |cs| >= 1 && Writable(cs)
    ensures ParseComposition(PackDescription(cs, packaging)) == seq(|cs|, i requires 0 <= i < |cs| => Item(cs[i]))
  {
    var tail := " " + (if packaging then PackedText else UnpackedText) + ".";
    assert PackDescription(cs, packaging) == Composition(cs) + "." + tail;
    RoundTrip(cs, tail);
  }

  /** What save-and-exit writes, the edit handler reads back. */
  lemma SaveDescriptionRoundTrip(cs: seq<Component>)
    requires |cs| >= 1 && Writable(cs)
    ensures ParseComposition(SaveDescription(cs)) == seq(|cs|, i requires 0 <= i < |cs| => Item(cs[i]))
  {
    assert SaveDescription(cs) == Composition(cs) + "." + "";
    RoundTrip(cs, "");
  }

  /** The parse yields one entry per ','-separated piece of the composition body. */
  lemma ParseLength(desc: string)
    ensures |ParseComposition(desc)| == |Split(Body(desc), ",")|
  {
  }

  lemma TwoPieces(a: string, b: string)
    requires ',' !in a && ',' !in b
    ensures |Split(a + [','] + b, ",")| == 2
  {
    SplitCharFirst(a, ',', b);
    SplitAbsent(b, ",", 0);
  }

  lemma CommaDescription()
    ensures SaveDescription([Component("a,b", 1)]) == Marker + "a,b (1)" + "." + ""
    ensures ':' !in "a,b (1)" && '.' !in "a,b (1)"
  {
    var cs := [Component("a,b", 1)];
    assert IntStr(1) == "1";
    assert Join(Parts(cs), ", ") == "a,b (1)";
  }

  /**
   * Why names must avoid ',': a bouquet of one component named "a,b" is written as
   * "Состав: a,b (1)." and read back as two pieces, "a" and "b (1)".
   */
  lemma CommaInNameBreaksRoundTrip()
    ensures var cs := [Component("a,b", 1)];
            |ParseComposition(SaveDescription(cs))| == 2 != |cs|
  {
    var cs := [Component("a,b", 1)];
    var item := "a,b (1)";
    CommaDescription();
    var desc := SaveDescription(cs);
    assert desc == Marker + item + "." + "";
    BodyAfterMarker(item, "");
    assert Body(desc) == item;
    assert item == "a" + [','] + "b (1)";
    TwoPieces("a", "b (1)");
    assert |Split(Body(desc), ",")| == 2;
    ParseLength(desc);
  }

  /** A text that opens with the marker splits into an empty first part and the split of the rest. */
  lemma MarkerFirst(rest: string)
    ensures Split(Marker + rest, Marker) == [""] + Split(rest, Marker)
  {
    var s := Marker + rest;
    assert s[..|Marker|] == Marker;
    FindAt(s, Marker, 0);
    assert s[|Marker|..] == rest;
  }

  /**
   * Why dropping the ':' ban needs more than "the name holds no marker": a component
   * named "Состав:" is written as "Состав: Состав: (1).", which holds the marker a
   * second time, so the parse starts after it and reads the one piece "(1)" as malformed.
   */
  lemma MarkerEndingNameBreaksRoundTrip()
    ensures ParseComposition(SaveDescription([Component("Состав:", 1)])) == [Malformed]
  {
    var desc := SaveDescription([Component("Состав:", 1)]);
    MarkerNameDescription();
    DoubleMarkerPieces();
    ParenOnlyMalformed();
    assert ParseComposition(desc) == ParseAll(["(1)"]);
  }

  lemma ParenOnlyMalformed()
    ensures ParseItem("(1)") == Malformed
  {
    SplitAbsent("(1)", " (", 0);
  }

  lemma DoubleMarkerPieces()
    ensures Pieces(Marker + (Marker + "(1).")) == ["(1)"]
  {
    DoubleMarkerBody();
    SplitAbsent("(1)", ",", 0);
    var s := "(1)";
    assert !IsSpace(s[0]) && !IsSpace(s[|s| - 1]);
    assert Strip(s) == s;
  }

  lemma MarkerNameDescription()
    ensures SaveDescription([Component("Состав:", 1)]) == Marker + (Marker + "(1).")
  {
    var cs := [Component("Состав:", 1)];
    assert IntStr(1) == "1";
    assert Join(Parts(cs), ", ") == "Состав: (1)";
  }

  lemma DoubleMarkerBody()
    ensures Body(Marker + (Marker + "(1).")) == "(1)"
  {
    var desc := Marker + (Marker + "(1).");
    MarkerFirst(Marker + "(1).");
    MarkerFirst("(1).");
    SplitAbsent("(1).", Marker, 0);
    assert Last(Split(desc, Marker)) == "(1).";
    SplitCharFirst("(1)", '.', "");
    assert "(1)" + ['.'] + "" == "(1).";
  }
}

=== FILE: text.dfy ===
/**
 * The Python string primitives the bot's manifest parser is built from,
 * each with the semantics of the Python built-in it stands for.
 */
module Text {
  import opened Wrappers

  /** Python's `str.isspace()` for a single character (the characters `str.strip()` removes). */
  predicate IsSpace(c: char)
  {
    || ('\t' <= c <= '\r')
    || ('\U{1C}' <= c <= '\U{1F}')
    || c == ' '
    || c == '\U{85}'
    || c == '\U{A0}'
    || c == '\U{1680}'
    || ('\U{2000}' <= c <= '\U{200A}')
    || c == '\U{2028}'
    || c == '\U{2029}'
    || c == '\U{202F}'
    || c == '\U{205F}'
    || c == '\U{3000}'
  }

  predicate IsDigit(c: char)
  {
    '0' <= c <= '9'
  }

  /** Python's `str.isdigit()`, restricted to the ASCII digits. */
  predicate IsDigits(s: string)
  {
    |s| > 0 && forall i :: 0 <= i < |s| ==> IsDigit(s[i])
  }

  /** `pat` occurs in `s` starting at index `i`. */
  predicate Occurs(s: string, pat: string, i: int)
  {
    0 <= i && i + |pat| <= |s| && s[i..i + |pat|] == pat
  }

  /** Occurrences in `s[1..]` are the occurrences in `s` shifted by one. */
  lemma ShiftOccurs(s: string, pat: string)
    requires |s| > 0
    ensures forall j :: 1 <= j ==> (Occurs(s, pat, j) <==> Occurs(s[1..], pat, j - 1))
  {
    forall j | 1 <= j
      ensures Occurs(s, pat, j) <==> Occurs(s[1..], pat, j - 1)
    {
      if j + |pat| <= |s| {
        assert s[1..][j - 1..j - 1 + |pat|] == s[j..j + |pat|];
      }
    }
  }

  /** `s.find(pat)`: the first index at which `pat` occurs, if any. */
  function Find(s: string, pat: string): (r: Option<nat>)
    requires |pat| > 0
    ensures r.Some? ==> Occurs(s, pat, r.value)
    ensures r.Some? ==> forall j :: 0 <= j < r.value ==> !Occurs(s, pat, j)
    ensures r.None? ==> forall j :: !Occurs(s, pat, j)
    decreases |s|
  {
    if |s| < |pat| then None
    else if s[..|pat|] == pat then Some(0)
    else
      ShiftOccurs(s, pat);
      match Find(s[1..], pat)
      case None => None
      case Some(i) => Some(i + 1)
  }

  /** An occurrence inside a prefix is an occurrence in the whole text, ending inside the prefix. */
  lemma PrefixOccurs(s: string, pat: string, n: int)
    requires 0 <= n <= |s| && |pat| > 0
    ensures forall j :: Occurs(s[..n], pat, j) ==> Occurs(s, pat, j) && j < n
  {
    forall j | Occurs(s[..n], pat, j)
      ensures Occurs(s, pat, j) && j < n
    {
      assert s[..n][j..j + |pat|] == s[j..j + |pat|];
    }
  }

  /** Every character of a slice is a character of the text. */
  lemma SliceChars(s: string, a: int, b: int)
    requires 0 <= a <= b <= |s|
    ensures forall x :: x in s[a..b] ==> x in s
  {
    forall x | x in s[a..b]
      ensures x in s
    {
      var k :| 0 <= k < b - a && s[a..b][k] == x;
      assert s[a + k] == x;
    }
  }

  /** A one-character pattern that occurs nowhere is a character the text lacks. */
  lemma NoOccursNoChar(s: string, c: char)
    requires forall j :: !Occurs(s, [c], j)
    ensures c !in s
  {
    forall k | 0 <= k < |s|
      ensures s[k] != c
    {
      assert !Occurs(s, [c], k);
      assert s[k..k + 1][0] == s[k];
    }
  }

  /** `sep.join(parts)`. */
  function Join(parts: seq<string>, sep: string): string
  {
    if |parts| == 0 then ""
    else if |parts| == 1 then parts[0]
    else parts[0] + sep + Join(parts[1..], sep)
  }

  /** `s.split(sep)`: the pieces between the non-overlapping occurrences of `sep`, scanned left to right. */
  function Split(s: string, sep: string): (parts: seq<string>)
    requires |sep| > 0
    ensures |parts| >= 1
    ensures Join(parts, sep) == s
    decreases |s|
  {
    match Find(s, sep)
    case None => [s]
    case Some(i) =>
      var rest := Split(s[i + |sep|..], sep);
      assert s == s[..i] + sep + s[i + |sep|..] by {
        assert s[i..i + |sep|] == sep;
      }
      [s[..i]] + rest
  }

  /**
   * `str.split` cuts at every occurrence, scanning left to right: with no occurrence the
   * text is the only part, otherwise the first part ends where the first occurrence
   * starts and the remaining parts are the split of what follows that occurrence; no
   * part holds the separator, and every character of a part is one of the text.
   */
  lemma {:induction false} SplitParts(s: string, sep: string)
    requires |sep| > 0
    ensures Find(s, sep).None? ==> Split(s, sep) == [s]
    ensures Find(s, sep).Some? ==> |Split(s, sep)| >= 2 && Split(s, sep)[0] == s[..Find(s, sep).value]
    ensures Find(s, sep).Some? ==> Split(s, sep)[1..] == Split(s[Find(s, sep).value + |sep|..], sep)
    ensures forall i, j :: 0 <= i < |Split(s, sep)| ==> !Occurs(Split(s, sep)[i], sep, j)
    ensures forall i, x :: 0 <= i < |Split(s, sep)| && x in Split(s, sep)[i] ==> x in s
    decreases |s|
  {
    match Find(s, sep)
    case None =>
    case Some(i) =>
      var tail := s[i + |sep|..];
      var parts := Split(s, sep);
      var rest := Split(tail, sep);
      assert parts == [s[..i]] + rest;
      PrefixOccurs(s, sep, i);
      SplitParts(tail, sep);
      SliceChars(s, 0, i);
      SliceChars(s, i + |sep|, |s|);
      assert forall k :: 1 <= k < |parts| ==> parts[k] == rest[k - 1];
      assert parts[1..] == rest;
  }

  /** The last element, Python's `xs[-1]`. */
  function Last(parts: seq<string>): string
    requires |parts| > 0
  {
    parts[|parts| - 1]
  }

  /** `s.lstrip()`. */
  function LStrip(s: string): (r: string)
    ensures |r| <= |s| && r == s[|s| - |r|..]
    ensures |r| > 0 ==> !IsSpace(r[0])
    ensures forall i :: 0 <= i < |s| - |r| ==> IsSpace(s[i])
    decreases |s|
  {
    if |s| > 0 && IsSpace(s[0]) then LStrip(s[1..]) else s
  }

  /** `s.rstrip()`. */
  function RStrip(s: string): (r: string)
    ensures |r| <= |s| && r == s[..|r|]
    ensures |r| > 0 ==> !IsSpace(r[|r| - 1])
    ensures forall i :: |r| <= i < |s| ==> IsSpace(s[i])
    decreases |s|
  {
    if |s| > 0 && IsSpace(s[|s| - 1]) then RStrip(s[..|s| - 1]) else s
  }

  /** `s.strip()`. */
  function Strip(s: string): (r: string)
    ensures |r| <= |s|
    ensures |r| > 0 ==> !IsSpace(r[0]) && !IsSpace(r[|r| - 1])
    ensures |s| > 0 && !IsSpace(s[0]) && !IsSpace(s[|s| - 1]) ==> r == s
  {
    StripEnds(s);
    StripTrimmed(s);
    RStrip(LStrip(s))
  }

  lemma StripEnds(s: string)
    ensures var r := RStrip(LStrip(s)); |r| > 0 ==> !IsSpace(r[0]) && !IsSpace(r[|r| - 1])
  {
    var l := LStrip(s);
    assert |RStrip(l)| > 0 ==> RStrip(l)[0] == l[0];
  }

  /** `str.strip()` keeps only characters of the text, and leaves nothing exactly when the text is all whitespace. */
  lemma StripShape(s: string)
    ensures forall x :: x in Strip(s) ==> x in s
    ensures |Strip(s)| == 0 <==> forall i :: 0 <= i < |s| ==> IsSpace(s[i])
  {
    StripChars(s);
    StripBlank(s);
  }

  /**
   * `str.strip()` cuts whitespace off the two ends and nothing else: the result is the
   * text's contiguous middle, and what lies before it (the first `a` characters, `a` being
   * the length of the leading whitespace) and after it is whitespace only.
   */
  lemma StripMiddle(s: string)
    ensures var a := |s| - |LStrip(s)|;
            && 0 <= a && a + |Strip(s)| <= |s|
            && (forall i :: 0 <= i < |Strip(s)| ==> Strip(s)[i] == s[a + i])
            && (forall i :: 0 <= i < a ==> IsSpace(s[i]))
            && (forall i :: a + |Strip(s)| <= i < |s| ==> IsSpace(s[i]))
  {
    var l := LStrip(s);
    var r := RStrip(l);
    assert Strip(s) == r;
    StripWindow(s, l, r, |s| - |l|);
  }

  /** Cutting `a` characters off the front and then some off the back leaves a window of `s` at offset `a`. */
  lemma StripWindow(s: string, l: string, r: string, a: int)
    requires 0 <= a <= |s| && l == s[a..]
    requires |r| <= |l| && r == l[..|r|]
    requires forall i :: |r| <= i < |l| ==> IsSpace(l[i])
    ensures a + |r| <= |s|
    ensures forall i :: 0 <= i < |r| ==> r[i] == s[a + i]
    ensures forall i :: a + |r| <= i < |s| ==> IsSpace(s[i])
  {
    forall i | a + |r| <= i < |s|
      ensures IsSpace(s[i])
    {
      assert s[i] == l[i - a];
    }
  }

  lemma StripChars(s: string)
    ensures forall x :: x in RStrip(LStrip(s)) ==> x in s
  {
    var l := LStrip(s);
    var r := RStrip(l);
    var a := |s| - |l|;
    StripWindow(s, l, r, a);
    forall x | x in r
      ensures x in s
    {
      var i :| 0 <= i < |r| && r[i] == x;
      assert s[a + i] == x;
    }
  }

  lemma StripBlank(s: string)
    ensures |RStrip(LStrip(s))| == 0 <==> forall i :: 0 <= i < |s| ==> IsSpace(s[i])
  {
    var l := LStrip(s);
    var a := |s| - |l|;
    assert |RStrip(l)| == 0 ==> |l| == 0;
    assert |l| > 0 ==> l[0] == s[a];
  }

  lemma StripTrimmed(s: string)
    ensures |s| > 0 && !IsSpace(s[0]) && !IsSpace(s[|s| - 1]) ==> RStrip(LStrip(s)) == s
  {
    if |s| > 0 && !IsSpace(s[0]) && !IsSpace(s[|s| - 1]) {
      assert LStrip(s) == s;
    }
  }

  /** `s.replace(c, "")` for a one-character `c`. */
  function RemoveAll(s: string, c: char): (r: string)
    ensures forall x :: x in r <==> x in s && x != c
    decreases |s|
  {
    if |s| == 0 then ""
    else (if s[0] == c then "" else [s[0]]) + RemoveAll(s[1..], c)
  }

  /**
   * `replace` works piece by piece: removing from a concatenation is removing from each
   * part, and a single character is kept, once and in place, exactly when it is not `c`.
   */
  lemma {:induction false} RemoveAllAppend(a: string, b: string, c: char)
    ensures RemoveAll(a + b, c) == RemoveAll(a, c) + RemoveAll(b, c)
    ensures |a| == 1 ==> RemoveAll(a, c) == if a[0] == c then "" else a
    decreases |a|
  {
    if |a| > 0 {
      assert (a + b)[1..] == a[1..] + b;
      RemoveAllAppend(a[1..], b, c);
    } else {
      assert a + b == b;
    }
  }

  lemma {:induction false} RemoveAllAbsent(s: string, c: char)
    requires c !in s
    ensures RemoveAll(s, c) == s
    decreases |s|
  {
    if |s| > 0 {
      assert s == [s[0]] + s[1..];
      RemoveAllAbsent(s[1..], c);
    }
  }

  function DigitChar(d: int): (c: char)
    requires 0 <= d < 10
    ensures IsDigit(c) && (c as int) - ('0' as int) == d
  {
    ((('0' as int) + d) as char)
  }

  /** `10 ** n`. */
  function Pow10(n: nat): (r: nat)
    ensures r >= 1
  {
    if n == 0 then 1 else 10 * Pow10(n - 1)
  }

  /** `int(s)` for a string of ASCII digits (leading zeros allowed). */
  function DigitsValue(s: string): (r: nat)
    requires forall i :: 0 <= i < |s| ==> IsDigit(s[i])
    ensures r < Pow10(|s|)
    decreases |s|
  {
    if |s| == 0 then 0
    else
      assert IsDigit(s[|s| - 1]);
      10 * DigitsValue(s[..|s| - 1]) + ((s[|s| - 1] as int) - ('0' as int))
  }

  /** The number `int()` reads is 0 exactly when every digit is `0`. */
  lemma {:induction false} DigitsValueZero(s: string)
    requires forall i :: 0 <= i < |s| ==> IsDigit(s[i])
    ensures DigitsValue(s) == 0 <==> forall i :: 0 <= i < |s| ==> s[i] == '0'
    decreases |s|
  {
    if |s| > 0 {
      var init := s[..|s| - 1];
      DigitsValueZero(init);
      assert forall i :: 0 <= i < |init| ==> init[i] == s[i];
    }
  }

  /** A leading zero does not change the number `int()` reads: `int("07") == int("7")`. */
  lemma {:induction false} DigitsValueLeadingZero(s: string)
    requires forall i :: 0 <= i < |s| ==> IsDigit(s[i])
    ensures DigitsValue("0" + s) == DigitsValue(s)
    decreases |s|
  {
    if |s| > 0 {
      var t := "0" + s;
      assert t[..|t| - 1] == "0" + s[..|s| - 1];
      DigitsValueLeadingZero(s[..|s| - 1]);
    }
  }

  /** `str(n)` for a non-negative integer: decimal digits without leading zeros. */
  function NatStr(n: nat): (r: string)
    ensures IsDigits(r)
    ensures DigitsValue(r) == n
    ensures n == 0 ==> r == "0"
    ensures n > 0 ==> r[0] != '0'
    decreases n
  {
    if n < 10 then [DigitChar(n)]
    else
      var r := NatStr(n / 10) + [DigitChar(n % 10)];
      assert r[..|r| - 1] == NatStr(n / 10);
      r
  }

  /** `str(i)` for any integer. */
  function IntStr(i: int): (r: string)
    ensures i >= 0 ==> IsDigits(r) && DigitsValue(r) == i
    ensures i == 0 ==> r == "0"
    ensures i > 0 ==> r[0] != '0'
    ensures i < 0 ==> |r| > 0 && r[0] == '-' && !IsDigits(r)
  {
    if i < 0 then
      var r := "-" + NatStr(-i);
      assert !IsDigit(r[0]);
      r
    else NatStr(i)
  }
}

=== FILE: wrappers.dfy ===
/** The optional-value and outcome types shared by every module of the model. */
module Wrappers {

  /** A value that may be missing (a row that a query did not find). */
  datatype Option<+T> = None | Some(value: T)

  /** The outcome of a handler that can refuse: either the new value or the reason. */
  datatype Result<+T, +E> = Success(value: T) | Failure(error: E)
}
